=== FILE: README.md ===
# Inventory dashboard: the decision logic, in Dafny

The system is a small inventory manager. A browser dashboard (`frontend/app.js`) talks to a Flask/MySQL REST API (`backend/app.py`). A bootstrap script (`database/init_db.py`) creates the schema. Most of the code is I/O. Inside the handlers sits a thin layer of pure decisions, and that layer is what this project models and proves things about:

- **Stock and alerts.** The dashboard classifies each product as out of stock, low or normal. It counts low-stock products and shows the five most recent alerts with an "and N more" line. The backend's `generar_alertas_stock` decides which products get a `stock_bajo` or `stock_agotado` alert.
- **Requests.** The form builds a JSON body from its entries and refuses a create with an empty required field. The form's save button is bound either to create or to update of one product id. The backend checks required fields, applies defaults on create and rejects duplicate codes. On update it builds the ordered SET list with the id last.
- **Paths and strings.** These cover upload extensions (`allowed_file`), the `/uploads/...` path of a stored image, the dashboard's rewrite of that path to the server URL, and the split of `schema.sql` into statements.

Modules follow the program's structure:

- `Text`: Python's `strip`, `split`, `lower`, `int()` and `str()`, plus JavaScript's `startsWith`.
- `Inventory`: products, categories and alerts.
- `Dashboard`, `Navigation` and `ProductForm`: `frontend/app.js`.
- `Api` and `StockAlerts`: `backend/app.py`.
- `SchemaInit`: `database/init_db.py`.
- `EndToEnd`: properties that join frontend and backend.

Some things become parameters:

- the database rows a query would see (a `seq<Product>`);
- the "recent alert exists" answer (a set of product/kind pairs);
- the random token and the filename sanitiser of an upload (a string and a function);
- whether the server accepts a schema statement (a function of the statement's text, so identical statements always get the same answer; a server that accepts a text once and refuses it later is not represented).

Two behaviours of the code are easy to miss:

- After an edit, the save button goes back to "create" only when the update succeeds. A failed update leaves it bound to the update. See Findings for the consequence.
- A click on a link whose section does not exist hides every section. So it is not true that exactly one section is always visible.

## Model

| member | source | states |
|---|---|---|
| `Inventory.FindProduct` | frontend/app.js:578 | `productos.find` gives nothing exactly when no product has the id, and otherwise the first product with it |
| `Dashboard.StockCellClass` | frontend/app.js:270 | the stock cell is marked `stock-bajo` exactly when the product is low on stock (stock ≤ minimum) |
| `Dashboard.StockCellText` | frontend/app.js:271 | the cell reads "Agotado" exactly when the stock is 0, otherwise it shows the stock figure |
| `Dashboard.Status` | frontend/app.js:299-304 | the badge is exactly one of Agotado (stock 0), Stock Bajo (non-zero and ≤ minimum), Normal (otherwise) |
| `Dashboard.StatusAgreesWithStockCell` | frontend/app.js:270-304 | with a non-negative minimum, the badge, the cell class and the cell text of a row never contradict each other |
| `Dashboard.NegativeMinimumSplitsIndicators` | frontend/app.js:270-300 | with stock 0 and minimum −1 the cell text and badge say Agotado while the cell is not marked low, so the agreement needs a non-negative minimum |
| `Dashboard.ImageFor` | frontend/app.js:274-286 | an `/uploads/` path gets `http://localhost:5000` in front; another non-empty URL is used unchanged; an empty or absent URL gives the placeholder |
| `Dashboard.ImageForIdempotent` | frontend/app.js:277-279 | rewriting an already rewritten source changes nothing |
| `Dashboard.ProductTableOf` | frontend/app.js:243-316 | an empty list gives the placeholder; otherwise one row per product, in order, each built from that product |
| `Dashboard.ProductDetailOf` | frontend/app.js:577-594 | the details appear only for an id in the list; they show the code, name and stock of the first product with that id, and their image follows the same rule as the table row |
| `Dashboard.LowStock` | frontend/app.js:138 | the filtered list holds every low-stock product and nothing else, and is no longer than the list |
| `Dashboard.LowStockCountsLowPositions` | frontend/app.js:138 | the filter's length equals the number of positions holding a low-stock product |
| `Dashboard.StatsOf` | frontend/app.js:133-142 | the cards show the product count, the category count and a low-stock count that is the number of low products and never exceeds the product count |
| `Dashboard.EntryOf` | frontend/app.js:165-184 | an alert is red exactly when it is an out-of-stock alert, and has a "mark read" button exactly when unread |
| `Dashboard.RecentAlerts` | frontend/app.js:152-199 | no alerts gives only the placeholder; otherwise the first min(n,5) alerts in order, and an overflow of n−5 exactly when n > 5 |
| `Dashboard.RecentAlertsAccountForAll` | frontend/app.js:162-195 | shown entries plus the overflow count equal the number of alerts |
| `Navigation.TargetId` | frontend/app.js:46 | the target id is the link's `href` without its first character (the `#`); an empty `href` gives the empty id |
| `Navigation.FirstSection` | frontend/app.js:46-47 | the lookup finds the first section with the target id, or reports that there is none; the empty id finds nothing |
| `Navigation.LoaderFor` | frontend/app.js:52-58 | a list is loaded exactly when the id is productos, categorias or alertas, and the loader is the one named by that id |
| `Navigation.Click` | frontend/app.js:33-60 | after a click only the clicked link is active; all sections are hidden except the first one with the target id, which is shown; its list is loaded only if it exists; an empty target shows nothing |
| `Navigation.ClickIdempotent` | frontend/app.js:36-49 | a second click on the same link changes nothing |
| `ProductForm.JsonPayload` | frontend/app.js:529-534 | the JSON body has exactly the keys with a non-empty entry other than `imagen_archivo`, each with a value from such an entry |
| `ProductForm.PayloadKeys` | frontend/app.js:529-534 | the loop's body holds a key exactly when some entry for it is kept, and every value comes from a kept entry for that key |
| `ProductForm.PayloadTakesLastKept` | frontend/app.js:530-533 | when a key repeats, the body keeps the value of its last non-empty entry |
| `ProductForm.FormGet` | frontend/app.js:498 | `FormData.get` returns the first entry with the key, or nothing when the key is absent |
| `ProductForm.SubmitCreate` | frontend/app.js:496-549 | a create sends nothing when codigo, nombre or precio is empty, on the file path and on the JSON path; otherwise it sends the multipart form or the JSON body |
| `ProductForm.SubmitUpdate` | frontend/app.js:639-683 | an update always sends a request for its id, with no required-field check |
| `ProductForm.JsonCreateNeedsRequired` | frontend/app.js:529-540 | a JSON create goes out exactly when codigo, nombre and precio each have a non-empty entry |
| `ProductForm.FieldAgrees` | frontend/app.js:496-540 | when no input name repeats, `formData.get(k)` is empty or absent exactly when the JSON body's `k` is |
| `ProductForm.BothPathsRefuseAlike` | frontend/app.js:496-540 | when no input name repeats, the file path and the JSON path refuse the same forms |
| `ProductForm.SaveRequest` | frontend/app.js:626 | in edit mode the save button sends an update of the bound id, and in create mode never an update |
| `ProductForm.NextModeAsWritten` | frontend/app.js:459-472 | as written, opening a new form leaves the binding as it was; edit mode is entered only by opening the editor for a listed product; create mode is reached again only by a successful save |
| `ProductForm.NextMode` | frontend/app.js:459-472 | with the corrected binding, opening a new form always binds create; edit mode is entered only by opening the editor for a listed product, and never right after a new form or a successful save |
| `ProductForm.ReplayAsWrittenBindsListed` | frontend/app.js:600-705 | as written, over any run of events the save button only ever updates a listed product; a run ending with a successful save is in create mode, and one ending with a new form keeps the mode it had |
| `ProductForm.ReplayBindsListed` | frontend/app.js:459-472 | with the corrected binding, over any run of events the save button only ever updates a listed product, and a run ending with a new form or a successful save is in create mode |
| `ProductForm.EditBindsUpdate` | frontend/app.js:600-627 | opening the editor for a listed product binds the save button to updating that product, as written and with the corrected binding alike |
| `ProductForm.OnlySuccessLeavesEditAsWritten` | frontend/app.js:648-666 | as written, only a successful update returns the form to create mode; a failed one stays in edit mode for the same id |
| `ProductForm.EditEndsOnSuccessOrNewForm` | frontend/app.js:461-472 | with the corrected binding, edit mode ends on a successful update or on opening a new form, and a failed update keeps it |
| `ProductForm.NewFormNeverUpdates` | frontend/app.js:461-472 | with the corrected binding, saving a freshly opened form always takes the create path |
| `ProductForm.StaleEditBindingAsWritten` | frontend/app.js:461-472 | as written, after an edit of product 7 fails, a complete new-product form is sent as an update of product 7 |
| `Api.AllowedFile` | backend/app.py:35-39 | an accepted file name contains a dot |
| `Api.AllowedFileByFinalExtension` | backend/app.py:37-39 | a name is accepted exactly when the text after its last dot, lower-cased, is png, jpg, jpeg, gif or webp |
| `Api.AllowedFileIgnoresCase` | backend/app.py:39 | a name and its lower-case form are accepted alike |
| `Api.SaveImage` | backend/app.py:41-65 | a path is returned exactly for an accepted file; it starts with `/uploads/`, followed by the token, `_` and the sanitised name; otherwise nothing |
| `Api.ImageUrlOf` | backend/app.py:204-217 | a JSON body, a multipart body without a file, or a file of a refused type leaves the body's `imagen_url` (empty when absent); an accepted upload gives the `/uploads/` path made of the token, `_` and the sanitised name |
| `Api.IntField` | backend/app.py:249-250 | `int(data.get(k, d))` gives the default for a missing key, fails for null and for empty text, and otherwise reads the text as `int()` does |
| `Api.IntFieldReadsDecimal` | backend/app.py:249-250 | a field holding the decimal text of n is read back as n |
| `Api.FirstMissing` | backend/app.py:219-223 | returns the first of the fields, in order, that is missing or empty, or nothing when all are present |
| `Api.CreateProduct` | backend/app.py:199-256 | a missing or empty codigo, nombre or precio is a 400 naming the first such field; a code already stored is a 400; a created product has stock 0 and minimum 5 unless given, and a null category unless one is given; the create succeeds exactly when the required fields are present, the code is free and both stock fields convert; a 500 arises exactly when the required fields are present, the code is free and a stock field fails `int()`, and its message starts with `Error creando producto: ` |
| `Api.CreateDefaults` | backend/app.py:244-253 | a body with only the required fields creates a product with stock 0, minimum 5, null category and empty description |
| `Api.CreateKeepsCodesUnique` | backend/app.py:231-236 | a successful create keeps all product codes distinct |
| `Api.BuildSetList` | backend/app.py:321-355 | one SET clause for each column the body updates, in the fixed order nombre … codigo, each with its own parameter; `imagen_url` also when an upload produced a path |
| `Api.ClausesFail` | backend/app.py:324-355 | the SET list cannot be built exactly when a column the body updates is stock_actual or stock_minimo with a value `int()` rejects |
| `Api.ClausesColumns` | backend/app.py:324-355 | the built clauses name exactly the updated columns of the list, in its order |
| `Api.ClausesParams` | backend/app.py:324-355 | the built clauses carry one parameter per column, the one that column's block appends |
| `Api.ClausesOfNone` | backend/app.py:324-358 | a body that updates no column leaves the SET list empty |
| `Api.ParamFor` | backend/app.py:325-355 | a stock column is bound to the number `int()` reads from its text, and fails exactly when that reading fails; categoria_id is bound to null exactly when its value is falsy; imagen_url to the handler's image URL; every other column to the body value unchanged |
| `Api.ParamForReadsDecimal` | backend/app.py:337-343 | a stock column holding the decimal text of n is bound to the number n |
| `Api.SetListColumnsDistinct` | backend/app.py:322-355 | the built SET list never names a column twice, and holds at most the eight columns |
| `Api.UpdateProduct` | backend/app.py:280-365 | an unknown id is a 404; a code held by another product is a 400; a body with no updatable field and no upload is a 400 with no UPDATE; otherwise the parameters are the clauses' values plus the id last; the update succeeds exactly when the row exists, the code is free, some column is updated and every stock field converts; a 500 arises exactly when the row exists, the code is free and an updated stock field fails `int()`, and its message starts with `Error actualizando producto: ` |
| `Api.UpdateAcceptsOwnCode` | backend/app.py:313-319 | re-sending the product's own code is accepted and sets just that column |
| `Api.UpdateKeepsCodesUnique` | backend/app.py:313-355 | an accepted update that sets the code keeps all product codes distinct |
| `StockAlerts.GenerarAlertasStock` | backend/app.py:390-464 | a product/kind pair gets an alert exactly when an active product qualifies for it (stock ≤ minimum for stock_bajo, stock 0 for stock_agotado) and it had no recent alert; no pair gets two; low-stock alerts come first; the count returned is the number inserted |
| `StockAlerts.AlertPass` | backend/app.py:412-429 | one pass inserts an alert, with that product's message, exactly for the selected pairs not yet seen, never twice for a pair, and leaves them all seen |
| `StockAlerts.QualifiesBoth` | backend/app.py:404-436 | only active products qualify; an active product at stock 0 qualifies for stock_agotado, and also for stock_bajo when its minimum is not negative |
| `StockAlerts.MessageNamesProduct` | backend/app.py:422-452 | an alert's message starts with `Stock bajo: ` or `STOCK AGOTADO: ` by kind, followed by the product's name and then its code |
| `StockAlerts.MessagesTellKindsApart` | backend/app.py:422-452 | a stock_bajo message never equals a stock_agotado message |
| `Text.Strip` | database/init_db.py:57 | the stripped string has no whitespace at either end, and is empty exactly when the input is blank |
| `Text.StripIsSlice` | database/init_db.py:57 | the stripped string is a slice of the input bordered by whitespace only, so it holds only characters of the input |
| `Text.Split` | database/init_db.py:57 | splitting yields at least one piece, none containing the separator, and joining the pieces gives back the input |
| `Text.SplitJoin` | database/init_db.py:57 | splitting a join of separator-free pieces gives back the pieces |
| `Text.ParseIntToDecimal` | backend/app.py:249-250 | reading back `str(n)` with `int()` gives n |
| `Text.ParseDecimal` | backend/app.py:249-250 | `int()` accepts exactly an optional sign followed by at least one digit; the value is the digits' value, negated after `-` |
| `Text.ParseSignedExamples` | backend/app.py:249-250 | `int("-12")`, `int("+7")` and `int("-012")` are −12, 7 and −12 |
| `Text.Lower` | backend/app.py:39 | lower-casing keeps the length, leaves no upper-case ASCII letter and changes no other character |
| `Text.LowerIdempotent` | backend/app.py:39 | lower-casing twice is lower-casing once |
| `Text.LastIndexOf` | backend/app.py:39 | finds the last occurrence of a character, or reports there is none |
| `SchemaInit.KeepCommands` | database/init_db.py:57 | there are no more statements than pieces, and every kept statement is non-empty, stripped and the strip of some piece |
| `SchemaInit.SchemaCommands` | database/init_db.py:57 | no statement is empty or whitespace-only, none has whitespace at either end, and none contains `;` |
| `SchemaInit.SchemaSingleCommand` | database/init_db.py:57 | a non-blank script without `;` gives exactly one statement, the stripped script |
| `SchemaInit.KeptConcat` | database/init_db.py:57 | the comprehension over two runs of pieces is the comprehension over each, in order |
| `SchemaInit.KeptSingle` | database/init_db.py:57 | one piece gives its strip when it is not blank, and nothing when it is |
| `SchemaInit.KeptComplete` | database/init_db.py:57 | the strip of every non-blank piece is kept |
| `SchemaInit.SchemaOfPieces` | database/init_db.py:53-57 | for any `;`-free pieces, the statements of their `;`-join are the strips of the non-blank pieces, in order, and none is lost |
| `SchemaInit.SchemaTwoStatements` | database/init_db.py:53-57 | two non-blank statements each followed by `;`, then blank text, give exactly the two stripped statements, first one first |
| `SchemaInit.SchemaRoundTrip` | database/init_db.py:53-57 | clean statements joined with `;` come back out unchanged and in order |
| `SchemaInit.RunCommands` | database/init_db.py:59-62 | statements run in order, each once, up to and including the first refused one; success means all ran |
| `SchemaInit.EjecutarSchema` | database/init_db.py:41-71 | the script's statements are executed in their script order, each exactly once; every statement before the last one executed was accepted, and the run stops at the first refused one |
| `EndToEnd.StoredUploadIsServed` | backend/app.py:62-63 | the path of a stored upload is shown by the dashboard from `http://localhost:5000` + path |
| `EndToEnd.FormCheckCoversBackend` | frontend/app.js:536-549 | a JSON create the form lets through always passes the backend's required-field check |

## Left out

- Network and DOM work is not modelled: `fetch`, `Promise.all`, `innerHTML`, Bootstrap modals, notifications, `setTimeout`, `FileReader`, `alert()`, image previews and the 5 MB file-size prompt. These are side effects, and each view is modelled as the data its markup is filled from.
- The health check display, `mostrarCategorias`, `mostrarTodasLasAlertas` and `marcarAlertaLeida` are left out. They only render or forward data, using the same alert rule as `Dashboard.EntryOf`.
- The inventory value card, `parseFloat`/`toFixed` and `float(precio)` are left out because they are floating point. The price travels as the value given, and its conversion is taken never to fail.
- Dates are left out: `toLocaleDateString`/`toLocaleTimeString`, and the `NOW()`/`DATE_SUB` windows. A "recent alert" is an input set.
- Flask routing, MySQL connections and SQL execution are not modelled, nor is the whole of `database/config.py`. So the 500 replies and `False` returns on a failed connection are absent, as are the GET endpoints, `marcar_alerta_leida` and `crear_base_datos`. Query results are input sequences.
- PIL thumbnailing, `uuid4` and `secure_filename` are code that cannot be seen here. The token and the sanitiser are parameters.
- HTML escaping is not modelled. The source does none, so there is nothing to state.
- `Api.CreateProduct`: the 500 reply's message is only its fixed prefix `Error creando producto: `. The exception text Python appends is not modelled, and the only failure modelled is a stock field `int()` rejects. Codes are compared with exact string equality, whereas MySQL's collation may ignore case. The upload is stored before the required-field and duplicate-code checks, so a refused create still leaves its file on disk. That side effect is not modelled.
- `Api.UpdateProduct`: the stored file of an upload is written before the 404 check. That side effect is not modelled. The 500 reply's message is only its prefix `Error actualizando producto: `, without the exception text.
- `Api.Value`: request bodies hold strings or JSON `null`. JSON numbers, booleans and objects from other clients are not modelled, because the dashboard sends only strings.
- `Text.ParseDecimal`: Python's `int()` also accepts surrounding whitespace, `_` between digits and non-ASCII digits. The model accepts only an optional sign followed by ASCII digits.
- `Text.Lower`: only ASCII letters are lower-cased. No other character lower-cases to a single letter of png, jpg, jpeg, gif or webp, so `allowed_file`'s answer is unchanged.
- `StockAlerts.GenerarAlertasStock`: both passes read the same product sequence. The SQL queries have no ORDER BY, so the order of the inserts within a pass is the order of that input.
- `Navigation.Click`: `getElementById` is modelled as a lookup among the page's sections. An element outside the sections with the same id is not modelled. An empty target id finds nothing, as `getElementById("")` returns null.
- `Dashboard.StatusAgreesWithStockCell`: the agreement of the badge and the cell class is promised only for a non-negative minimum. The backend stores any integer minimum, and with a negative one the indicators of an empty product disagree, as `Dashboard.NegativeMinimumSplitsIndicators` shows.
- `Dashboard.ProductTableOf`: the category column, with its "Sin categoría" fallback, and the price column are not modelled. The product record holds no category name, and the price is floating point.
- `Dashboard.ProductDetailOf`: the price, category and description lines of the details, with their "Sin categoría" and "Sin descripción" fallbacks, are not modelled. The product record holds no price (floating point), category name or description.
- `ProductForm.SaveRequest`: the save button is taken to start bound to the create path. That binding lives in the HTML page, which is not part of this model.
- `Api.Body`: a multipart body is modelled directly as its field map. Werkzeug keeps the first value of a repeated field.

## Findings

| source | as written | input that shows it | evidently intended | confidence | as-written member | corrected member |
|---|---|---|---|---|---|---|
| frontend/app.js:461-472 | opening the "new product" form resets the fields and the title but leaves the save button's handler as it is | edit product 7, let the update fail or close the dialog, open "new product", fill codigo/nombre/precio and save: the form is sent as `PUT /productos/7`, overwriting product 7 | opening the new-product form binds the save button to create (`guardarProducto`) | not executed; high for the handler logic, which depends on the page not rebinding the button on close | `ProductForm.NextModeAsWritten` (shown by `ProductForm.StaleEditBindingAsWritten`) | `ProductForm.NextMode` (proved by `ProductForm.NewFormNeverUpdates`) |

=== FILE: api.dfy ===
/**
 * The decision logic inside the request handlers of backend/app.py: which uploads are
 * accepted and where they are stored, the checks and defaults of product creation, and
 * the column list of a product update. Database access is replaced by the rows a query
 * would see; the uploaded file's name sanitiser and the random token are parameters.
 */
module Api {
  import opened Optional
  import opened Text
  import opened Inventory

  // ---------------------------------------------------------------- uploads

  const AllowedExtensions: set<string> := {"png", "jpg", "jpeg", "gif", "webp"}

  /** `allowed_file`: the text after the last dot, lower-cased, is an image extension. */
  function AllowedFile(filename: string): (ok: bool)
    ensures ok ==> '.' in filename
  {
    match LastIndexOf(filename, '.')
    case None => false
    case Some(i) => Lower(filename[i + 1..]) in AllowedExtensions
  }

  /** Only the final extension counts: `a.png.exe` is refused and `a.exe.png` accepted. */
  lemma AllowedFileByFinalExtension(stem: string, ext: string)
    requires '.' !in ext
    ensures AllowedFile(stem + "." + ext) <==> Lower(ext) in AllowedExtensions
  {
    var s := stem + "." + ext;
    var i := LastIndexOf(s, '.').value;
    assert s[|stem|] == '.';
    assert forall k :: |stem| < k < |s| ==> s[k] == ext[k - |stem| - 1];
    assert i == |stem|;
    assert s[i + 1..] == ext;
  }

  /** Lower-casing does not move dots, so the last dot of a name and of its lower-case form coincide. */
  lemma LastDotOfLower(name: string)
    ensures LastIndexOf(Lower(name), '.') == LastIndexOf(name, '.')
  {
    LastIndexOfSamePositions(Lower(name), name, '.');
  }

  lemma LowerSlice(s: string, i: nat)
    requires i <= |s|
    ensures Lower(s)[i..] == Lower(s[i..])
  {
    assert forall k :: 0 <= k < |s| - i ==> Lower(s)[i..][k] == Lower(s[i..])[k];
  }

  /** Case is ignored: a name is accepted exactly when its lower-case form is. */
  lemma AllowedFileIgnoresCase(name: string)
    ensures AllowedFile(Lower(name)) == AllowedFile(name)
  {
    var low := Lower(name);
    LastDotOfLower(name);
    var dot := LastIndexOf(name, '.');
    if dot.Some? {
      var i := dot.value;
      var ext := name[i + 1..];
      LowerSlice(name, i + 1);
      LowerIdempotent(ext);
      assert AllowedFile(name) == (Lower(ext) in AllowedExtensions);
      assert AllowedFile(low) == (Lower(low[i + 1..]) in AllowedExtensions);
    }
  }

  /** An uploaded file part; Werkzeug treats a part with an empty file name as absent. */
  datatype Upload = Upload(filename: string)

  const UploadRoute: string := "/uploads/"

  /**
   * `save_image`: an accepted file is stored under `<token>_<sanitised name>` and its
   * server-relative path under `/uploads/` is returned; anything else gives `None`.
   */
  function SaveImage(file: Option<Upload>, token: string, secure: string -> string): (r: Option<string>)
    ensures r.Some? <==> file.Some? && AllowedFile(file.value.filename)
    ensures r.Some? ==> StartsWith(r.value, UploadRoute)
    ensures r.Some? ==> r.value[|UploadRoute|..] == token + "_" + secure(file.value.filename)
  {
    if file.Some? && file.value.filename != "" && AllowedFile(file.value.filename) then
      var path := UploadRoute + token + "_" + secure(file.value.filename);
      assert path[..|UploadRoute|] == UploadRoute;
      Some(path)
    else None
  }

  // ---------------------------------------------------------------- request bodies

  /** A value of the request body: the frontend only sends strings; JSON `null` is kept. */
  datatype Value = Str(s: string) | Null

  /** Python truthiness of a body value. */
  predicate Truthy(v: Value) {
    v.Str? && v.s != ""
  }

  /** `data.get(k, default)`. */
  function Get(data: map<string, Value>, k: string, default: Value): Value {
    if k in data then data[k] else default
  }

  /** A request body: JSON or multipart form fields, plus the uploaded file of a multipart body. */
  datatype Body = Body(isJson: bool, data: map<string, Value>, file: Option<Upload>)

  /** The `imagen_url` a handler works with: the one in the body, replaced by the stored upload's path if there is one. */
  function ImageUrlOf(body: Body, token: string, secure: string -> string): (v: Value)
    ensures body.isJson || body.file.None? || !AllowedFile(body.file.value.filename) ==> v == Get(body.data, "imagen_url", Str(""))
    ensures !body.isJson && body.file.Some? && AllowedFile(body.file.value.filename) ==>
      v.Str? && StartsWith(v.s, UploadRoute) && v.s[|UploadRoute|..] == token + "_" + secure(body.file.value.filename)
  {
    var given := Get(body.data, "imagen_url", Str(""));
    if body.isJson then given
    else
      match SaveImage(body.file, token, secure)
      case Some(url) => Str(url)
      case None => given
  }

  /** A handler's refusal: the HTTP status and the `error` text. */
  datatype ApiError = ApiError(status: nat, message: string)

  datatype Result<T> = Ok(value: T) | Err(error: ApiError)

  const DuplicateCode: ApiError := ApiError(400, "El código del producto ya existe")

  /** `int(data.get(k, default))`; `None` where Python raises. */
  function IntField(data: map<string, Value>, k: string, default: int): (r: Option<int>)
    ensures k !in data ==> r == Some(default)
    ensures k in data && (data[k] == Str("") || data[k].Null?) ==> r.None?
    ensures k in data && data[k].Str? ==> r == ParseDecimal(data[k].s)
  {
    if k !in data then Some(default)
    else match data[k]
      case Str(s) => ParseDecimal(s)
      case Null => None
  }

  /** A field holding the decimal text of `n`, as `str(n)` writes it, is read back as `n`. */
  lemma IntFieldReadsDecimal(data: map<string, Value>, k: string, default: int, n: int)
    requires k in data && data[k] == Str(IntToDecimal(n))
    ensures IntField(data, k, default) == Some(n)
  {
    ParseIntToDecimal(n);
  }

  predicate Present(data: map<string, Value>, k: string) {
    k in data && Truthy(data[k])
  }

  const RequiredFields: seq<string> := ["codigo", "nombre", "precio"]

  /** The first field of `fields`, in order, that is missing or empty. */
  function FirstMissing(data: map<string, Value>, fields: seq<string>): (r: Option<string>)
    ensures r.None? <==> forall i :: 0 <= i < |fields| ==> Present(data, fields[i])
    ensures r.Some? ==> exists i :: (0 <= i < |fields| && fields[i] == r.value && !Present(data, r.value)
      && forall j :: 0 <= j < i ==> Present(data, fields[j]))
  {
    if |fields| == 0 then None
    else if !Present(data, fields[0]) then Some(fields[0])
    else
      var r := FirstMissing(data, fields[1..]);
      if r.Some? then
        var i :| 0 <= i < |fields[1..]| && fields[1..][i] == r.value && !Present(data, r.value)
          && forall j :: 0 <= j < i ==> Present(data, fields[1..][j]);
        assert fields[i + 1] == r.value;
        r
      else r
  }

  /** The stored product rows share a code? */
  predicate CodeTaken(table: seq<Product>, code: string) {
    exists i :: 0 <= i < |table| && table[i].codigo == code
  }

  /** The values of the INSERT of a new product (the price is carried as given). */
  datatype NewProduct = NewProduct(
    codigo: string, nombre: Value, descripcion: Value, precio: Value,
    stockActual: int, stockMinimo: int, categoriaId: Value, imagenUrl: Value)

  /** Every conversion of a create succeeds: `int()` of the two stock fields, with their defaults. */
  predicate CreateConverts(data: map<string, Value>) {
    IntField(data, "stock_actual", 0).Some? && IntField(data, "stock_minimo", 5).Some?
  }

  /** The text of the 500 reply starts with this; Python's exception text follows it. */
  const CreateFailurePrefix: string := "Error creando producto: "

  /**
   * `crear_producto`, after the upload: the required fields, then the code's uniqueness
   * among all rows, then the defaults (stock 0, minimum 5, no category when empty).
   */
  function CreateProduct(data: map<string, Value>, imagenUrl: Value, table: seq<Product>): (r: Result<NewProduct>)
    ensures FirstMissing(data, RequiredFields).Some? ==>
      r == Err(ApiError(400, "Campo requerido: " + FirstMissing(data, RequiredFields).value))
    ensures FirstMissing(data, RequiredFields).None? && CodeTaken(table, data["codigo"].s) ==> r == Err(DuplicateCode)
    ensures r.Err? ==> r.error.status == 400 || r.error.status == 500
    ensures r.Ok? <==> (Present(data, "codigo") && Present(data, "nombre") && Present(data, "precio")
      && !CodeTaken(table, data["codigo"].s) && CreateConverts(data))
    ensures r.Err? && r.error.status == 500 ==>
      FirstMissing(data, RequiredFields).None? && !CreateConverts(data) && StartsWith(r.error.message, CreateFailurePrefix)
    ensures FirstMissing(data, RequiredFields).None? && !CodeTaken(table, data["codigo"].s) && !CreateConverts(data) ==>
      r.Err? && r.error.status == 500 && StartsWith(r.error.message, CreateFailurePrefix)
    ensures r.Ok? ==> Present(data, "codigo") && Present(data, "nombre") && Present(data, "precio")
    ensures r.Ok? ==> r.value.codigo == data["codigo"].s && !CodeTaken(table, r.value.codigo)
    ensures r.Ok? ==> r.value.nombre == data["nombre"] && r.value.precio == data["precio"] && r.value.imagenUrl == imagenUrl
    ensures r.Ok? ==> r.value.descripcion == Get(data, "descripcion", Str(""))
    ensures r.Ok? ==> Some(r.value.stockActual) == IntField(data, "stock_actual", 0)
    ensures r.Ok? ==> Some(r.value.stockMinimo) == IntField(data, "stock_minimo", 5)
    ensures r.Ok? ==> (r.value.categoriaId == Null <==> !Present(data, "categoria_id"))
    ensures r.Ok? && Present(data, "categoria_id") ==> r.value.categoriaId == data["categoria_id"]
  {
    match FirstMissing(data, RequiredFields)
    case Some(f) => Err(ApiError(400, "Campo requerido: " + f))
    case None =>
      assert Present(data, RequiredFields[0]) && Present(data, RequiredFields[1]) && Present(data, RequiredFields[2]);
      var codigo := data["codigo"].s;
      if CodeTaken(table, codigo) then Err(DuplicateCode)
      else
        match (IntField(data, "stock_actual", 0), IntField(data, "stock_minimo", 5))
        case (Some(actual), Some(minimo)) =>
          Ok(NewProduct(
            codigo, data["nombre"], Get(data, "descripcion", Str("")), data["precio"], actual, minimo,
            if Present(data, "categoria_id") then data["categoria_id"] else Null, imagenUrl))
        case _ =>
          assert CreateFailurePrefix[..|CreateFailurePrefix|] == CreateFailurePrefix;
          Err(ApiError(500, CreateFailurePrefix))
  }

  /** A create with only the required fields gets the handler's defaults (stock 0, minimum 5, no category). */
  lemma CreateDefaults(codigo: string, nombre: string, precio: string, imagenUrl: Value, table: seq<Product>)
    requires codigo != "" && nombre != "" && precio != ""
    requires !CodeTaken(table, codigo)
    ensures var r := CreateProduct(map["codigo" := Str(codigo), "nombre" := Str(nombre), "precio" := Str(precio)], imagenUrl, table);
      r.Ok? && r.value.stockActual == 0 && r.value.stockMinimo == 5 && r.value.categoriaId == Null
      && r.value.descripcion == Str("")
  {
    var data := map["codigo" := Str(codigo), "nombre" := Str(nombre), "precio" := Str(precio)];
    assert FirstMissing(data, RequiredFields).None?;
  }

  function Codes(table: seq<Product>): (cs: seq<string>)
    ensures |cs| == |table| && forall i :: 0 <= i < |table| ==> cs[i] == table[i].codigo
  {
    seq(|table|, i requires 0 <= i < |table| => table[i].codigo)
  }

  predicate Distinct(cs: seq<string>) {
    forall i, j :: 0 <= i < j < |cs| ==> cs[i] != cs[j]
  }

  /** Creation keeps product codes unique. */
  lemma CreateKeepsCodesUnique(data: map<string, Value>, imagenUrl: Value, table: seq<Product>)
    requires Distinct(Codes(table))
    requires CreateProduct(data, imagenUrl, table).Ok?
    ensures Distinct(Codes(table) + [CreateProduct(data, imagenUrl, table).value.codigo])
  {
    var cs := Codes(table) + [CreateProduct(data, imagenUrl, table).value.codigo];
    forall i, j | 0 <= i < j < |cs| ensures cs[i] != cs[j] {
      if j == |table| {
        assert table[i].codigo == cs[i];
      }
    }
  }

  // ---------------------------------------------------------------- updates

  /** The updatable columns; each is also the name of its key in the request body. */
  datatype Column = Nombre | Descripcion | Precio | StockActual | StockMinimo | CategoriaId | ImagenUrl | Codigo

  function Key(c: Column): string {
    match c
    case Nombre => "nombre"
    case Descripcion => "descripcion"
    case Precio => "precio"
    case StockActual => "stock_actual"
    case StockMinimo => "stock_minimo"
    case CategoriaId => "categoria_id"
    case ImagenUrl => "imagen_url"
    case Codigo => "codigo"
  }

  /** The position of a column in the handler's fixed order. */
  function Rank(c: Column): nat {
    match c
    case Nombre => 0
    case Descripcion => 1
    case Precio => 2
    case StockActual => 3
    case StockMinimo => 4
    case CategoriaId => 5
    case ImagenUrl => 6
    case Codigo => 7
  }

  const UpdateOrder: seq<Column> := [Nombre, Descripcion, Precio, StockActual, StockMinimo, CategoriaId, ImagenUrl, Codigo]

  lemma UpdateOrderRanks()
    ensures forall i :: 0 <= i < |UpdateOrder| ==> Rank(UpdateOrder[i]) == i
    ensures forall c: Column :: c in UpdateOrder
  {
    forall c: Column ensures c in UpdateOrder {
      assert UpdateOrder[Rank(c)] == c;
    }
  }

  /** A column is set when its key is in the body; the image also when an upload produced a path. */
  predicate Updates(data: map<string, Value>, imagenUrl: Value, c: Column) {
    Key(c) in data || (c == ImagenUrl && Truthy(imagenUrl))
  }

  /** A statement parameter: a body value as given, or an integer converted by `int()`. */
  datatype Param = Given(v: Value) | Number(n: int)

  /** The parameter of one SET clause; `None` where the conversion raises. */
  function ParamFor(data: map<string, Value>, imagenUrl: Value, c: Column): (r: Option<Param>)
    requires Updates(data, imagenUrl, c)
    ensures r.None? <==> (c.StockActual? || c.StockMinimo?) && IntField(data, Key(c), 0).None?
    ensures (c.StockActual? || c.StockMinimo?) && r.Some? ==>
      (data[Key(c)].Str? && r.value == Number(ParseDecimal(data[Key(c)].s).value))
    ensures c.CategoriaId? ==> (r.Some? && r.value.Given?
      && (r.value.v == Null <==> !Truthy(data["categoria_id"]))
      && (r.value.v != Null ==> r.value.v == data["categoria_id"]))
    ensures c.ImagenUrl? ==> r == Some(Given(imagenUrl))
    ensures c.Nombre? || c.Descripcion? || c.Precio? || c.Codigo? ==> r == Some(Given(data[Key(c)]))
  {
    match c
    case StockActual =>
      (match IntField(data, Key(c), 0) case Some(n) => Some(Number(n)) case None => None)
    case StockMinimo =>
      (match IntField(data, Key(c), 0) case Some(n) => Some(Number(n)) case None => None)
    case CategoriaId => Some(Given(if Truthy(data[Key(c)]) then data[Key(c)] else Null))
    case ImagenUrl => Some(Given(imagenUrl))
    case _ => Some(Given(data[Key(c)]))
  }

  /** A stock column holding the decimal text of `n` is bound to the number `n`. */
  lemma ParamForReadsDecimal(data: map<string, Value>, imagenUrl: Value, c: Column, n: int)
    requires c.StockActual? || c.StockMinimo?
    requires Key(c) in data && data[Key(c)] == Str(IntToDecimal(n))
    ensures Updates(data, imagenUrl, c)
    ensures ParamFor(data, imagenUrl, c) == Some(Number(n))
  {
    IntFieldReadsDecimal(data, Key(c), 0, n);
  }

  predicate RankSorted(cols: seq<Column>) {
    forall i, j :: 0 <= i < j < |cols| ==> Rank(cols[i]) < Rank(cols[j])
  }

  /** The SET columns and their parameters, column for column. */
  datatype SetList = SetList(columns: seq<Column>, params: seq<Param>)

  /** The eight `if` blocks of `actualizar_producto` over the columns `cols`, one after another. */
  function Clauses(data: map<string, Value>, imagenUrl: Value, cols: seq<Column>): Option<SetList> {
    if |cols| == 0 then Some(SetList([], []))
    else
      var c := cols[0];
      var rest := Clauses(data, imagenUrl, cols[1..]);
      if !Updates(data, imagenUrl, c) then rest
      else
        match ParamFor(data, imagenUrl, c)
        case None => None
        case Some(p) =>
          match rest
          case None => None
          case Some(tail) => Some(SetList([c] + tail.columns, [p] + tail.params))
  }

  /** The clauses fail exactly when a column the body updates has a conversion that raises. */
  lemma {:induction false} ClausesFail(data: map<string, Value>, imagenUrl: Value, cols: seq<Column>)
    ensures Clauses(data, imagenUrl, cols).None? <==>
      exists i :: 0 <= i < |cols| && Updates(data, imagenUrl, cols[i]) && ParamFor(data, imagenUrl, cols[i]).None?
  {
    if |cols| > 0 {
      ClausesFail(data, imagenUrl, cols[1..]);
      assert forall i :: 0 <= i < |cols[1..]| ==> cols[1..][i] == cols[i + 1];
      if Updates(data, imagenUrl, cols[0]) && ParamFor(data, imagenUrl, cols[0]).None? {
        assert 0 < |cols|;
      }
    }
  }

  /** Built clauses: one parameter per column, each the parameter of that column. */
  lemma {:induction false} ClausesParams(data: map<string, Value>, imagenUrl: Value, cols: seq<Column>)
    ensures var r := Clauses(data, imagenUrl, cols);
      r.Some? ==>
        && |r.value.columns| == |r.value.params|
        && forall i :: 0 <= i < |r.value.columns| ==>
             Updates(data, imagenUrl, r.value.columns[i]) && ParamFor(data, imagenUrl, r.value.columns[i]) == Some(r.value.params[i])
  {
    if |cols| > 0 {
      var c := cols[0];
      var rest := Clauses(data, imagenUrl, cols[1..]);
      ClausesParams(data, imagenUrl, cols[1..]);
      if Updates(data, imagenUrl, c) && ParamFor(data, imagenUrl, c).Some? && rest.Some? {
        var r := Clauses(data, imagenUrl, cols).value;
        assert r.columns == [c] + rest.value.columns;
        assert r.params == [ParamFor(data, imagenUrl, c).value] + rest.value.params;
      }
    }
  }

  /** Built clauses: exactly the updated columns of `cols`, in the order of `cols`. */
  lemma {:induction false} ClausesColumns(data: map<string, Value>, imagenUrl: Value, cols: seq<Column>)
    requires RankSorted(cols)
    ensures var r := Clauses(data, imagenUrl, cols);
      r.Some? ==>
        && (forall c :: c in r.value.columns <==> c in cols && Updates(data, imagenUrl, c))
        && RankSorted(r.value.columns)
  {
    if |cols| > 0 {
      var c := cols[0];
      var tailCols := cols[1..];
      assert forall i :: 0 <= i < |tailCols| ==> tailCols[i] == cols[i + 1];
      ClausesColumns(data, imagenUrl, tailCols);
      var rest := Clauses(data, imagenUrl, tailCols);
      if Updates(data, imagenUrl, c) && ParamFor(data, imagenUrl, c).Some? && rest.Some? {
        var tail := rest.value;
        forall i | 0 <= i < |tail.columns| ensures Rank(c) < Rank(tail.columns[i]) {
          assert tail.columns[i] in tailCols;
          var k :| 0 <= k < |tailCols| && tailCols[k] == tail.columns[i];
          assert cols[k + 1] == tail.columns[i];
        }
      }
    }
  }

  /** A body that updates none of the columns gives an empty SET list. */
  lemma {:induction false} ClausesOfNone(data: map<string, Value>, imagenUrl: Value, cols: seq<Column>)
    requires forall i :: 0 <= i < |cols| ==> !Updates(data, imagenUrl, cols[i])
    ensures Clauses(data, imagenUrl, cols) == Some(SetList([], []))
  {
    if |cols| > 0 {
      assert !Updates(data, imagenUrl, cols[0]);
      ClausesOfNone(data, imagenUrl, cols[1..]);
    }
  }

  /** A body that updates exactly one of the columns gives a single clause for it. */
  lemma {:induction false} ClausesOfOne(data: map<string, Value>, imagenUrl: Value, cols: seq<Column>, k: nat, p: Param)
    requires k < |cols|
    requires forall i :: 0 <= i < |cols| ==> (Updates(data, imagenUrl, cols[i]) <==> i == k)
    requires ParamFor(data, imagenUrl, cols[k]) == Some(p)
    ensures Clauses(data, imagenUrl, cols) == Some(SetList([cols[k]], [p]))
  {
    if k == 0 {
      ClausesOfNone(data, imagenUrl, cols[1..]);
      assert [cols[0]] + [] == [cols[0]] && [p] + [] == [p];
    } else {
      assert !Updates(data, imagenUrl, cols[0]);
      ClausesOfOne(data, imagenUrl, cols[1..], k - 1, p);
    }
  }

  /**
   * The SET list of `actualizar_producto` over the columns `cols` in order: one clause for
   * each column the body updates, in the given order, with its parameter; `None` when a
   * conversion raises.
   */
  function BuildSetList(data: map<string, Value>, imagenUrl: Value, cols: seq<Column>): (r: Option<SetList>)
    requires RankSorted(cols)
    ensures r.None? <==> exists i :: 0 <= i < |cols| && Updates(data, imagenUrl, cols[i]) && ParamFor(data, imagenUrl, cols[i]).None?
    ensures r.Some? ==> |r.value.columns| == |r.value.params|
    ensures r.Some? ==> forall c :: c in r.value.columns <==> c in cols && Updates(data, imagenUrl, c)
    ensures r.Some? ==> RankSorted(r.value.columns)
    ensures r.Some? ==> forall i :: 0 <= i < |r.value.columns| ==>
      Updates(data, imagenUrl, r.value.columns[i]) && ParamFor(data, imagenUrl, r.value.columns[i]) == Some(r.value.params[i])
  {
    ClausesFail(data, imagenUrl, cols);
    ClausesParams(data, imagenUrl, cols);
    ClausesColumns(data, imagenUrl, cols);
    Clauses(data, imagenUrl, cols)
  }

  /** Ranks strictly increase along a sorted column list, so no column can repeat. */
  lemma {:induction false} RanksGrow(cols: seq<Column>)
    requires RankSorted(cols) && |cols| > 0
    ensures Rank(cols[|cols| - 1]) >= Rank(cols[0]) + |cols| - 1
  {
    if |cols| > 1 {
      RanksGrow(cols[..|cols| - 1]);
    }
  }

  /** The SET list of an update names each column at most once, so it has at most eight clauses. */
  lemma SetListColumnsDistinct(data: map<string, Value>, imagenUrl: Value)
    ensures RankSorted(UpdateOrder)
    ensures var r := BuildSetList(data, imagenUrl, UpdateOrder);
      r.Some? ==> (|r.value.columns| <= |UpdateOrder|
        && forall i, j :: 0 <= i < j < |r.value.columns| ==> r.value.columns[i] != r.value.columns[j])
  {
    UpdateOrderRanks();
    var r := BuildSetList(data, imagenUrl, UpdateOrder);
    if r.Some? && |r.value.columns| > 0 {
      RanksGrow(r.value.columns);
    }
  }

  /** An executable UPDATE: the SET columns in order and the parameters, the product id last. */
  datatype UpdatePlan = UpdatePlan(columns: seq<Column>, params: seq<Param>)

  const ProductNotFound: ApiError := ApiError(404, "Producto no encontrado")
  const NothingToUpdate: ApiError := ApiError(400, "No se proporcionaron campos para actualizar")

  predicate RowExists(table: seq<Product>, id: int) {
    exists i :: 0 <= i < |table| && table[i].id == id
  }

  /** Another product (a different id) already holds the code in the body. */
  predicate CodeHeldByOther(table: seq<Product>, data: map<string, Value>, id: int) {
    "codigo" in data && data["codigo"].Str?
    && exists i :: 0 <= i < |table| && table[i].codigo == data["codigo"].s && table[i].id != id
  }

  /** Every column the body updates has a conversion that succeeds. */
  predicate UpdateConverts(data: map<string, Value>, imagenUrl: Value) {
    forall c: Column :: Updates(data, imagenUrl, c) ==> ParamFor(data, imagenUrl, c).Some?
  }

  /** The body updates at least one column. */
  predicate UpdatesSomething(data: map<string, Value>, imagenUrl: Value) {
    exists c: Column :: Updates(data, imagenUrl, c)
  }

  const UpdateFailurePrefix: string := "Error actualizando producto: "

  /**
   * `actualizar_producto`, after the upload: the row must exist, the code must not belong
   * to another product, and at least one column must be set; the plan's parameters are
   * those of its SET clauses followed by the id.
   */
  function UpdateProduct(id: int, data: map<string, Value>, imagenUrl: Value, table: seq<Product>): (r: Result<UpdatePlan>)
    ensures !RowExists(table, id) ==> r == Err(ProductNotFound)
    ensures RowExists(table, id) && CodeHeldByOther(table, data, id) ==> r == Err(DuplicateCode)
    ensures RowExists(table, id) && !CodeHeldByOther(table, data, id) && (forall c: Column :: !Updates(data, imagenUrl, c))
      ==> r == Err(NothingToUpdate)
    ensures r.Ok? <==> (RowExists(table, id) && !CodeHeldByOther(table, data, id)
      && UpdatesSomething(data, imagenUrl) && UpdateConverts(data, imagenUrl))
    ensures r == Err(NothingToUpdate) <==> (RowExists(table, id) && !CodeHeldByOther(table, data, id)
      && !UpdatesSomething(data, imagenUrl))
    ensures r.Err? && r.error.status == 500 ==>
      RowExists(table, id) && !CodeHeldByOther(table, data, id) && !UpdateConverts(data, imagenUrl)
      && StartsWith(r.error.message, UpdateFailurePrefix)
    ensures RowExists(table, id) && !CodeHeldByOther(table, data, id) && !UpdateConverts(data, imagenUrl) ==>
      r.Err? && r.error.status == 500 && StartsWith(r.error.message, UpdateFailurePrefix)
    ensures r.Ok? ==> |r.value.params| == |r.value.columns| + 1 && r.value.params[|r.value.columns|] == Number(id)
    ensures r.Ok? ==> |r.value.columns| > 0 && RankSorted(r.value.columns)
    ensures r.Ok? ==> forall c: Column :: c in r.value.columns <==> Updates(data, imagenUrl, c)
    ensures r.Ok? ==> forall i :: 0 <= i < |r.value.columns| ==>
      Updates(data, imagenUrl, r.value.columns[i]) && ParamFor(data, imagenUrl, r.value.columns[i]) == Some(r.value.params[i])
  {
    UpdateOrderRanks();
    if !RowExists(table, id) then Err(ProductNotFound)
    else if CodeHeldByOther(table, data, id) then Err(DuplicateCode)
    else
      match BuildSetList(data, imagenUrl, UpdateOrder)
      case None =>
        assert UpdateFailurePrefix[..|UpdateFailurePrefix|] == UpdateFailurePrefix;
        Err(ApiError(500, UpdateFailurePrefix))
      case Some(set_) =>
        if |set_.columns| == 0 then
          assert forall c: Column :: !Updates(data, imagenUrl, c);
          Err(NothingToUpdate)
        else
          assert Updates(data, imagenUrl, set_.columns[0]);
          Ok(UpdatePlan(set_.columns, set_.params + [Number(id)]))
  }

  /** Re-sending a product's own code is not a conflict: updating only the code succeeds. */
  lemma UpdateAcceptsOwnCode(id: int, code: string, imagenUrl: Value, table: seq<Product>)
    requires RowExists(table, id)
    requires forall i :: 0 <= i < |table| && table[i].codigo == code ==> table[i].id == id
    requires !Truthy(imagenUrl)
    ensures var r := UpdateProduct(id, map["codigo" := Str(code)], imagenUrl, table);
      r.Ok? && r.value.columns == [Codigo] && r.value.params == [Given(Str(code)), Number(id)]
  {
    var data := map["codigo" := Str(code)];
    assert !CodeHeldByOther(table, data, id);
    UpdateOrderRanks();
    forall i | 0 <= i < |UpdateOrder| ensures Updates(data, imagenUrl, UpdateOrder[i]) <==> i == 7 {
      assert Rank(UpdateOrder[i]) == i;
    }
    ClausesOfOne(data, imagenUrl, UpdateOrder, 7, Given(Str(code)));
  }

  predicate UniqueIds(table: seq<Product>) {
    forall i, j :: 0 <= i < j < |table| ==> table[i].id != table[j].id
  }

  /** The table after an update that sets the code of product `id`. */
  function Recode(table: seq<Product>, id: int, code: string): (t: seq<Product>)
    ensures |t| == |table|
  {
    seq(|table|, i requires 0 <= i < |table| => if table[i].id == id then table[i].(codigo := code) else table[i])
  }

  /** An accepted update that changes the code keeps product codes unique. */
  lemma UpdateKeepsCodesUnique(id: int, data: map<string, Value>, imagenUrl: Value, table: seq<Product>)
    requires UniqueIds(table) && Distinct(Codes(table))
    requires UpdateProduct(id, data, imagenUrl, table).Ok?
    requires "codigo" in data && data["codigo"].Str?
    ensures Distinct(Codes(Recode(table, id, data["codigo"].s)))
  {
    var s := data["codigo"].s;
    var t := Recode(table, id, s);
    assert !CodeHeldByOther(table, data, id);
    forall i, j | 0 <= i < j < |t| ensures t[i].codigo != t[j].codigo {
      assert Codes(table)[i] == table[i].codigo && Codes(table)[j] == table[j].codigo;
      if table[i].id == id {
        assert table[j].codigo != s;
      } else if table[j].id == id {
        assert table[i].codigo != s;
      }
    }
  }
}

=== FILE: dashboard.dfy ===
/**
 * The dashboard views of frontend/app.js: the stock cells and status badge of the product
 * table, the statistics cards, the recent-alerts panel and the image-URL rewrite.
 * The HTML markup itself is left out; each view is the data the markup is filled from.
 */
module Dashboard {
  import opened Optional
  import opened Text
  import opened Inventory

  /** CSS class of the stock cell. */
  datatype StockClass = StockBajoClass | StockNormalClass

  /** Text of the stock cell: the word "Agotado" or the number of units. */
  datatype StockText = Agotado | Units(n: int)

  /** The status badge: "Agotado", "Stock Bajo" or "Normal". */
  datatype StatusBadge = AgotadoBadge | StockBajoBadge | NormalBadge

  function StockCellClass(p: Product): (c: StockClass)
    ensures c == StockBajoClass <==> IsLowStock(p)
  {
    if p.stockActual <= p.stockMinimo then StockBajoClass else StockNormalClass
  }

  function StockCellText(p: Product): (t: StockText)
    ensures t == Agotado <==> IsOutOfStock(p)
    ensures t.Units? ==> t.n == p.stockActual
  {
    if p.stockActual == 0 then Agotado else Units(p.stockActual)
  }

  /** The badge is exactly one of the three, decided out-of-stock first. */
  function Status(p: Product): (b: StatusBadge)
    ensures b == AgotadoBadge <==> IsOutOfStock(p)
    ensures b == StockBajoBadge <==> !IsOutOfStock(p) && IsLowStock(p)
    ensures b == NormalBadge <==> !IsOutOfStock(p) && !IsLowStock(p)
  {
    if p.stockActual == 0 then AgotadoBadge
    else if p.stockActual <= p.stockMinimo then StockBajoBadge
    else NormalBadge
  }

  /**
   * With a non-negative minimum the three stock indicators of a row agree: the badge is
   * not "Normal" exactly when the cell is marked low, and it says "Agotado" exactly when
   * the cell does.
   */
  lemma StatusAgreesWithStockCell(p: Product)
    requires p.stockMinimo >= 0
    ensures Status(p) != NormalBadge <==> StockCellClass(p) == StockBajoClass
    ensures Status(p) == AgotadoBadge <==> StockCellText(p) == Agotado
  {
  }

  /**
   * A negative minimum, which the backend accepts, splits the indicators: an empty shelf
   * reads "Agotado" in the cell and the badge while the cell is not marked low.
   */
  lemma NegativeMinimumSplitsIndicators()
    ensures var p := Product(1, "A1", "Tornillo", 0, -1, true, None);
      Status(p) == AgotadoBadge && StockCellText(p) == Agotado && StockCellClass(p) == StockNormalClass
  {
  }

  // ---------------------------------------------------------------- images

  const ServerOrigin: string := "http://localhost:5000"
  const UploadsPrefix: string := "/uploads/"

  /** What the image cell shows: the placeholder or a picture from `src`. */
  datatype ImageView = NoImage | ImageAt(src: string)

  /**
   * The image rule of the product table and of the product details: a server-relative
   * upload path gets the server origin in front, any other non-empty URL is used as is,
   * and an empty or absent URL gives the placeholder.
   */
  function ImageFor(url: Option<string>): (v: ImageView)
    ensures v == NoImage <==> url.None? || url.value == ""
    ensures url.Some? && StartsWith(url.value, UploadsPrefix) ==> v == ImageAt(ServerOrigin + url.value)
    ensures url.Some? && url.value != "" && !StartsWith(url.value, UploadsPrefix) ==> v == ImageAt(url.value)
  {
    match url
    case None => NoImage
    case Some(u) =>
      if u != "" && StartsWith(u, UploadsPrefix) then ImageAt(ServerOrigin + u)
      else if u != "" then ImageAt(u)
      else NoImage
  }

  /** Rewriting is idempotent: feeding the shown source back in shows the same source. */
  lemma ImageForIdempotent(url: Option<string>)
    ensures ImageFor(url).ImageAt? ==> ImageFor(Some(ImageFor(url).src)) == ImageFor(url)
  {
    var v := ImageFor(url);
    if v.ImageAt? && url.Some? && StartsWith(url.value, UploadsPrefix) {
      assert v.src[0] == 'h';
    }
  }

  // ---------------------------------------------------------------- product table

  /** The data of one table row. */
  datatype ProductRow = ProductRow(
    id: int, codigo: string, nombre: string,
    image: ImageView, stockClass: StockClass, stockText: StockText, status: StatusBadge)

  function RowOf(p: Product): ProductRow {
    ProductRow(p.id, p.codigo, p.nombre, ImageFor(p.imagenUrl), StockCellClass(p), StockCellText(p), Status(p))
  }

  /** The product list: a placeholder when empty, otherwise one row per product in order. */
  datatype ProductTable = NoProducts | Rows(rows: seq<ProductRow>)

  function ProductTableOf(ps: seq<Product>): (t: ProductTable)
    ensures t == NoProducts <==> |ps| == 0
    ensures t.Rows? ==> |t.rows| == |ps| && forall i :: 0 <= i < |ps| ==> t.rows[i] == RowOf(ps[i])
  {
    if |ps| == 0 then NoProducts else Rows(seq(|ps|, i requires 0 <= i < |ps| => RowOf(ps[i])))
  }

  /** What the "view product" prompt shows; nothing at all when the id is not in the list. */
  datatype ProductDetail = ProductDetail(codigo: string, nombre: string, stockActual: int, image: ImageView)

  function ProductDetailOf(ps: seq<Product>, id: int): (d: Option<ProductDetail>)
    ensures d.None? <==> forall i :: 0 <= i < |ps| ==> ps[i].id != id
    ensures d.Some? ==> exists i :: (0 <= i < |ps| && ps[i].id == id && (forall j :: 0 <= j < i ==> ps[j].id != id)
      && d.value == ProductDetail(ps[i].codigo, ps[i].nombre, ps[i].stockActual, RowOf(ps[i]).image))
  {
    match FindProduct(ps, id)
    case None => None
    case Some(p) => Some(ProductDetail(p.codigo, p.nombre, p.stockActual, ImageFor(p.imagenUrl)))
  }

  // ---------------------------------------------------------------- statistics

  /** The low-stock products, in list order (`productos.filter(...)`). */
  function LowStock(ps: seq<Product>): (r: seq<Product>)
    ensures |r| <= |ps|
    ensures forall p :: p in r ==> p in ps && IsLowStock(p)
    ensures forall p :: p in ps && IsLowStock(p) ==> p in r
  {
    if |ps| == 0 then []
    else
      var front := ps[..|ps| - 1];
      var last := ps[|ps| - 1];
      assert ps == front + [last];
      var r := LowStock(front);
      if IsLowStock(last) then r + [last] else r
  }

  /** Positions of low-stock products: an independent way to count them. */
  ghost function LowPositions(ps: seq<Product>): set<nat> {
    set i: nat | i < |ps| && IsLowStock(ps[i])
  }

  /** Dropping the last product removes at most its own position. */
  lemma LowPositionsSnoc(ps: seq<Product>)
    requires |ps| > 0
    ensures LowPositions(ps) == LowPositions(ps[..|ps| - 1]) + (if IsLowStock(ps[|ps| - 1]) then {|ps| - 1} else {})
  {
    var n := |ps| - 1;
    forall i: nat | i < n ensures ps[..n][i] == ps[i] {
    }
  }

  lemma {:induction false} LowStockCountsLowPositions(ps: seq<Product>)
    ensures |LowStock(ps)| == |LowPositions(ps)|
    ensures |LowPositions(ps)| <= |ps|
  {
    if |ps| == 0 {
      assert LowPositions(ps) == {};
    } else {
      var n := |ps| - 1;
      var front := ps[..n];
      LowStockCountsLowPositions(front);
      LowPositionsSnoc(ps);
      assert n !in LowPositions(front);
    }
  }

  /** The numbers of the statistics cards (the inventory value is left out). */
  datatype Stats = Stats(totalProductos: nat, stockBajo: nat, totalCategorias: nat)

  function StatsOf(ps: seq<Product>, cs: seq<Category>): (s: Stats)
    ensures s.totalProductos == |ps| && s.totalCategorias == |cs|
    ensures s.stockBajo == |LowPositions(ps)|
    ensures s.stockBajo <= s.totalProductos
  {
    LowStockCountsLowPositions(ps);
    Stats(|ps|, |LowStock(ps)|, |cs|)
  }

  // ---------------------------------------------------------------- recent alerts

  const RecentLimit: nat := 5

  /** How an alert is shown: red for out-of-stock, yellow otherwise; a button while unread. */
  datatype Severity = Danger | Warning

  datatype AlertEntry = AlertEntry(alert: Alert, severity: Severity, markReadButton: bool)

  function EntryOf(a: Alert): (e: AlertEntry)
    ensures e.alert == a
    ensures e.severity == Danger <==> a.kind == StockAgotado
    ensures e.markReadButton <==> !a.leida
  {
    AlertEntry(a, if a.kind == StockAgotado then Danger else Warning, !a.leida)
  }

  /** The recent-alerts panel: a placeholder, or the first entries plus an optional "and N more". */
  datatype RecentAlertsView = NoRecentAlerts | RecentList(entries: seq<AlertEntry>, more: Option<nat>)

  function RecentAlerts(alerts: seq<Alert>): (v: RecentAlertsView)
    ensures v == NoRecentAlerts <==> |alerts| == 0
    ensures v.RecentList? ==> |v.entries| == if |alerts| < RecentLimit then |alerts| else RecentLimit
    ensures v.RecentList? ==> forall i :: 0 <= i < |v.entries| ==> v.entries[i] == EntryOf(alerts[i])
    ensures v.RecentList? ==> (v.more.Some? <==> |alerts| > RecentLimit)
    ensures v.RecentList? && v.more.Some? ==> v.more.value == |alerts| - RecentLimit
  {
    if |alerts| == 0 then NoRecentAlerts
    else
      var shown := if |alerts| < RecentLimit then alerts else alerts[..RecentLimit];
      RecentList(seq(|shown|, i requires 0 <= i < |shown| => EntryOf(shown[i])),
                 if |alerts| > RecentLimit then Some(|alerts| - RecentLimit) else None)
  }

  /** Every alert is accounted for: the shown entries plus the overflow count give the total. */
  lemma RecentAlertsAccountForAll(alerts: seq<Alert>)
    requires |alerts| > 0
    ensures |RecentAlerts(alerts).entries| + RecentAlerts(alerts).more.GetOr(0) == |alerts|
  {
  }
}

=== FILE: end_to_end.dfy ===
/**
 * Properties that span the frontend and the backend: the path `save_image` returns is one
 * the dashboard rewrites to the server, and a JSON create the form lets through passes
 * the backend's required-field check.
 */
module EndToEnd {
  import opened Optional
  import opened Text
  import Api
  import Dashboard
  import ProductForm

  /** A stored upload is shown from the server: the two sides agree on the `/uploads/` prefix. */
  lemma StoredUploadIsServed(file: Option<Api.Upload>, token: string, secure: string -> string)
    requires Api.SaveImage(file, token, secure).Some?
    ensures var path := Api.SaveImage(file, token, secure).value;
      Dashboard.ImageFor(Some(path)) == Dashboard.ImageAt(Dashboard.ServerOrigin + path)
  {
    var path := Api.SaveImage(file, token, secure).value;
    assert Api.UploadRoute == Dashboard.UploadsPrefix;
    assert path != [] by { assert |path| >= |Api.UploadRoute|; }
  }

  /** The body the backend parses from the JSON the form sends. */
  function AsRequestData(body: map<string, ProductForm.FormValue>): (data: map<string, Api.Value>)
    ensures data.Keys == body.Keys
    ensures forall k :: k in body && body[k].Field? ==> data[k] == Api.Str(body[k].text)
  {
    map k | k in body :: match body[k]
      case Field(s) => Api.Str(s)
      case File(_) => Api.Null
  }

  /**
   * The form's own check is as strict as the backend's: a JSON create that leaves the
   * browser never comes back with "Campo requerido".
   */
  lemma FormCheckCoversBackend(entries: seq<ProductForm.FormEntry>)
    requires forall i :: 0 <= i < |entries| && entries[i].1.File? ==> entries[i].0 == ProductForm.FileField
    requires ProductForm.SubmitCreate(entries, false).PostJson?
    ensures Api.FirstMissing(AsRequestData(ProductForm.SubmitCreate(entries, false).body), Api.RequiredFields).None?
  {
    var body := ProductForm.SubmitCreate(entries, false).body;
    var data := AsRequestData(body);
    forall k | k in Api.RequiredFields ensures Api.Present(data, k) {
      assert k in body;
      assert (k, body[k]) in entries;
    }
  }
}

=== FILE: inventory.dfy ===
/**
 * The entities shared by the backend and the dashboard: product rows of the `productos`
 * table and alerts of the `alertas` table, as they travel through the REST API.
 * Prices are left out (they are floating point); see README.
 */
module Inventory {
  import opened Optional

  /** A row of `productos` (plus nothing the core logic reads beyond these columns). */
  datatype Product = Product(
    id: int,
    codigo: string,
    nombre: string,
    stockActual: int,
    stockMinimo: int,
    activo: bool,
    imagenUrl: Option<string>)

  /** Low stock: the current stock is at or below the product's minimum. */
  predicate IsLowStock(p: Product) {
    p.stockActual <= p.stockMinimo
  }

  /** Out of stock: no unit left. */
  predicate IsOutOfStock(p: Product) {
    p.stockActual == 0
  }

  /** The two values of `alertas.tipo_alerta`. */
  datatype AlertKind = StockBajo | StockAgotado

  /** An alert as the API lists it, with the product's name and code joined in. */
  datatype Alert = Alert(
    id: int,
    productoId: int,
    kind: AlertKind,
    mensaje: string,
    leida: bool,
    productoNombre: string,
    productoCodigo: string)

  /** A row of `categorias`; the dashboard only counts them. */
  datatype Category = Category(id: int, nombre: string, descripcion: Option<string>)

  /** `productos.find(p => p.id === id)`: the first product with that id, if any. */
  function FindProduct(ps: seq<Product>, id: int): (r: Option<Product>)
    ensures r.None? <==> forall i :: 0 <= i < |ps| ==> ps[i].id != id
    ensures r.Some? ==> r.value in ps && r.value.id == id
    ensures r.Some? ==> exists i :: 0 <= i < |ps| && ps[i] == r.value && forall j :: 0 <= j < i ==> ps[j].id != id
  {
    if |ps| == 0 then None
    else if ps[0].id == id then
      assert ps[0] == ps[0];
      Some(ps[0])
    else
      var r := FindProduct(ps[1..], id);
      if r.Some? then
        var i :| 0 <= i < |ps[1..]| && ps[1..][i] == r.value && forall j :: 0 <= j < i ==> ps[1..][j].id != id;
        assert ps[i + 1] == r.value;
        r
      else r
  }
}

=== FILE: navigation.dfy ===
/**
 * The navigation bar of frontend/app.js: clicking a link makes it the only active link,
 * hides every section, shows the section the link points at (when the document has it)
 * and names the list that has to be reloaded for that section.
 */
module Navigation {

  datatype Link = Link(href: string, active: bool)
  datatype Section = Section(id: string, shown: bool)
  datatype Page = Page(links: seq<Link>, sections: seq<Section>)

  /** The data load a click starts. */
  datatype Loader = LoadProductos | LoadCategorias | LoadAlertas | NoLoad

  datatype ClickResult = ClickResult(page: Page, load: Loader)

  /** `href.substring(1)`: the href without its first character (the `#`); empty for an empty href. */
  function TargetId(href: string): (t: string)
    ensures |href| > 0 ==> href == [href[0]] + t
    ensures |href| == 0 ==> t == ""
  {
    if |href| >= 1 then href[1..] else ""
  }

  const LoadedSections: seq<string> := ["productos", "categorias", "alertas"]

  /** The reload a shown section starts: only the three list sections have one, each its own. */
  function LoaderFor(id: string): (l: Loader)
    ensures l == NoLoad <==> id !in LoadedSections
    ensures l != NoLoad ==> LoadedSections[LoaderIndex(l)] == id
  {
    if id == "productos" then LoadProductos
    else if id == "categorias" then LoadCategorias
    else if id == "alertas" then LoadAlertas
    else NoLoad
  }

  /** The position in `LoadedSections` of the section a loader belongs to. */
  function LoaderIndex(l: Loader): nat
    requires l != NoLoad
  {
    match l
    case LoadProductos => 0
    case LoadCategorias => 1
    case LoadAlertas => 2
  }

  /**
   * `document.getElementById(id)` over the sections: the first section carrying that id,
   * or `|sections|` for none. No element has the empty id, so `""` finds nothing.
   */
  function FirstSection(sections: seq<Section>, id: string): (k: nat)
    ensures k <= |sections|
    ensures id == "" ==> k == |sections|
    ensures id != "" ==> forall j :: 0 <= j < k ==> sections[j].id != id
    ensures k < |sections| ==> sections[k].id == id
  {
    if id == "" || |sections| == 0 then |sections|
    else if sections[0].id == id then 0
    else 1 + FirstSection(sections[1..], id)
  }

  /**
   * A click on link `clicked`. Exactly that link is active afterwards; every section is
   * hidden except the first one whose id is the link's target, which is shown; when no
   * section has that id, or the target is empty, nothing is shown and nothing is loaded.
   */
  function Click(page: Page, clicked: nat): (r: ClickResult)
    requires clicked < |page.links|
    ensures |r.page.links| == |page.links| && |r.page.sections| == |page.sections|
    ensures forall j :: 0 <= j < |page.links| ==>
      r.page.links[j].href == page.links[j].href && (r.page.links[j].active <==> j == clicked)
    ensures forall j :: 0 <= j < |page.sections| ==> r.page.sections[j].id == page.sections[j].id
    ensures var t := TargetId(page.links[clicked].href);
      (t == "" || forall j :: 0 <= j < |page.sections| ==> page.sections[j].id != t) ==>
        (forall j :: 0 <= j < |page.sections| ==> !r.page.sections[j].shown) && r.load == NoLoad
    ensures var t := TargetId(page.links[clicked].href);
      forall k :: 0 <= k < |page.sections| && t != "" && page.sections[k].id == t && (forall j :: 0 <= j < k ==> page.sections[j].id != t) ==>
        (forall j :: 0 <= j < |page.sections| ==> (r.page.sections[j].shown <==> j == k)) && r.load == LoaderFor(t)
  {
    var t := TargetId(page.links[clicked].href);
    var links := seq(|page.links|, j requires 0 <= j < |page.links| => Link(page.links[j].href, j == clicked));
    var k := FirstSection(page.sections, t);
    var sections := seq(|page.sections|, j requires 0 <= j < |page.sections| => Section(page.sections[j].id, j == k));
    ClickResult(Page(links, sections), if k < |page.sections| then LoaderFor(t) else NoLoad)
  }

  /** Clicking the same link again changes nothing: the click's effect does not depend on the previous state. */
  lemma ClickIdempotent(page: Page, clicked: nat)
    requires clicked < |page.links|
    ensures Click(Click(page, clicked).page, clicked) == Click(page, clicked)
  {
    var once := Click(page, clicked);
    var twice := Click(once.page, clicked);
    assert once.page.links[clicked].href == page.links[clicked].href;
    assert twice.page.links == once.page.links;
    assert twice.page.sections == once.page.sections;
  }
}

=== FILE: optional.dfy ===
/** The optional value used throughout the model for JavaScript's null/undefined and Python's None. */
module Optional {

  datatype Option<+T> = None | Some(value: T) {

    /** The wrapped value, or `default` when there is none. */
    function GetOr(default: T): T {
      match this
      case Some(v) => v
      case None => default
    }
  }
}

=== FILE: product_form.dfy ===
/**
 * The product form of frontend/app.js: the JSON body built from the form entries, the
 * required-field check before a create, the request each save issues, and the mode of
 * the save button (create, or update of one product id).
 */
module ProductForm {
  import opened Optional
  import opened Inventory

  /** A `FormData` value: text from an input, or the file object of the file input. */
  datatype FormValue = Field(text: string) | File(name: string)

  /** One `FormData` entry, key and value, in document order. */
  type FormEntry = (string, FormValue)

  const FileField: string := "imagen_archivo"

  /** An entry that goes into the JSON body: its value is not the empty string and it is not the file input. */
  predicate Kept(e: FormEntry) {
    e.1 != Field("") && e.0 != FileField
  }

  predicate HasKeptEntry(entries: seq<FormEntry>, k: string) {
    exists i :: 0 <= i < |entries| && entries[i].0 == k && Kept(entries[i])
  }

  /** The loop over the entries of the URL-only path, in document order: `data[key] = value` for each kept entry. */
  function Payload(entries: seq<FormEntry>): map<string, FormValue> {
    if |entries| == 0 then map[]
    else
      var e := entries[|entries| - 1];
      var m := Payload(entries[..|entries| - 1]);
      if Kept(e) then m[e.0 := e.1] else m
  }

  /** The body holds exactly the keys with a kept entry, each with the value of one of them. */
  lemma {:induction false} PayloadKeys(entries: seq<FormEntry>)
    ensures forall k :: k in Payload(entries) <==> HasKeptEntry(entries, k)
    ensures forall k :: k in Payload(entries) ==> (k, Payload(entries)[k]) in entries && Kept((k, Payload(entries)[k]))
    decreases |entries|
  {
    if |entries| > 0 {
      var front := entries[..|entries| - 1];
      var e := entries[|entries| - 1];
      assert entries == front + [e];
      PayloadKeys(front);
      forall k ensures HasKeptEntry(entries, k) <==> HasKeptEntry(front, k) || (e.0 == k && Kept(e)) {
        if HasKeptEntry(entries, k) {
          var i :| 0 <= i < |entries| && entries[i].0 == k && Kept(entries[i]);
          if i < |front| { assert front[i] == entries[i]; }
        }
        if HasKeptEntry(front, k) {
          var i :| 0 <= i < |front| && front[i].0 == k && Kept(front[i]);
          assert entries[i] == front[i];
        }
      }
    }
  }

  /**
   * The JSON body of the URL-only path: exactly the keys that have a kept entry, each
   * mapped to the value of one of its kept entries, and nothing else.
   */
  function JsonPayload(entries: seq<FormEntry>): (m: map<string, FormValue>)
    ensures forall k :: k in m <==> HasKeptEntry(entries, k)
    ensures forall k :: k in m ==> (k, m[k]) in entries && Kept((k, m[k]))
  {
    PayloadKeys(entries);
    Payload(entries)
  }

  /** Later entries overwrite earlier ones: a key's value comes from its last kept entry. */
  lemma {:induction false} PayloadTakesLastKept(entries: seq<FormEntry>, i: nat)
    requires i < |entries| && Kept(entries[i])
    requires forall j :: i < j < |entries| ==> entries[j].0 != entries[i].0 || !Kept(entries[j])
    ensures entries[i].0 in Payload(entries) && Payload(entries)[entries[i].0] == entries[i].1
    decreases |entries|
  {
    var n := |entries| - 1;
    if i < n {
      var front := entries[..n];
      assert front[i] == entries[i];
      PayloadTakesLastKept(front, i);
    }
  }

  /** `FormData.get(k)`: the value of the first entry with key `k`. */
  function FormGet(entries: seq<FormEntry>, k: string): (r: Option<FormValue>)
    ensures r.None? <==> forall i :: 0 <= i < |entries| ==> entries[i].0 != k
    ensures r.Some? ==> exists i :: 0 <= i < |entries| && entries[i] == (k, r.value) && forall j :: 0 <= j < i ==> entries[j].0 != k
  {
    if |entries| == 0 then None
    else if entries[0].0 == k then
      assert entries[0] == (k, entries[0].1);
      Some(entries[0].1)
    else
      var r := FormGet(entries[1..], k);
      if r.Some? then
        var i :| 0 <= i < |entries[1..]| && entries[1..][i] == (k, r.value) && forall j :: 0 <= j < i ==> entries[1..][j].0 != k;
        assert entries[i + 1] == (k, r.value);
        r
      else r
  }

  function Lookup(m: map<string, FormValue>, k: string): Option<FormValue> {
    if k in m then Some(m[k]) else None
  }

  /** JavaScript falsiness of a form value: absent or the empty string. */
  predicate Missing(v: Option<FormValue>) {
    v.None? || v.value == Field("")
  }

  /** The check of the file path: `!formData.get(...)` for codigo, nombre or precio. */
  predicate FormLacksRequired(entries: seq<FormEntry>) {
    Missing(FormGet(entries, "codigo")) || Missing(FormGet(entries, "nombre")) || Missing(FormGet(entries, "precio"))
  }

  /** The check of the JSON path, on the body already built. */
  predicate PayloadLacksRequired(m: map<string, FormValue>) {
    Missing(Lookup(m, "codigo")) || Missing(Lookup(m, "nombre")) || Missing(Lookup(m, "precio"))
  }

  /** The request a save sends; `NoRequest` when the form is refused before any network call. */
  datatype Request =
    | NoRequest
    | PostMultipart(entries: seq<FormEntry>)
    | PostJson(body: map<string, FormValue>)
    | PutMultipart(id: int, entries: seq<FormEntry>)
    | PutJson(id: int, body: map<string, FormValue>)

  /** `guardarProducto`: the whole form as multipart when a file is chosen, the JSON body otherwise. */
  function SubmitCreate(entries: seq<FormEntry>, hasFile: bool): (r: Request)
    ensures r.NoRequest? <==> if hasFile then FormLacksRequired(entries) else PayloadLacksRequired(JsonPayload(entries))
    ensures r.PostMultipart? ==> hasFile && r.entries == entries
    ensures r.PostJson? ==> !hasFile && r.body == JsonPayload(entries)
    ensures !r.PutMultipart? && !r.PutJson?
  {
    if hasFile then
      if FormLacksRequired(entries) then NoRequest else PostMultipart(entries)
    else
      var body := JsonPayload(entries);
      if PayloadLacksRequired(body) then NoRequest else PostJson(body)
  }

  /** `actualizarProducto(id)`: the same two shapes, without any required-field check. */
  function SubmitUpdate(id: int, entries: seq<FormEntry>, hasFile: bool): (r: Request)
    ensures r.PutMultipart? || r.PutJson?
    ensures r.id == id
    ensures r.PutMultipart? <==> hasFile
    ensures r.PutMultipart? ==> r.entries == entries
    ensures r.PutJson? ==> r.body == JsonPayload(entries)
  {
    if hasFile then PutMultipart(id, entries) else PutJson(id, JsonPayload(entries))
  }

  /** No JSON create goes out unless each required field has a non-empty entry. */
  lemma JsonCreateNeedsRequired(entries: seq<FormEntry>)
    ensures SubmitCreate(entries, false).PostJson? <==>
      HasKeptEntry(entries, "codigo") && HasKeptEntry(entries, "nombre") && HasKeptEntry(entries, "precio")
  {
  }

  predicate DistinctKeys(entries: seq<FormEntry>) {
    forall i, j :: 0 <= i < j < |entries| ==> entries[i].0 != entries[j].0
  }

  /** With one entry per input name, `formData.get(k)` and the JSON body agree on whether `k` is filled in. */
  lemma FieldAgrees(entries: seq<FormEntry>, k: string)
    requires DistinctKeys(entries) && k != FileField
    ensures Missing(FormGet(entries, k)) <==> Missing(Lookup(JsonPayload(entries), k))
  {
    var g := FormGet(entries, k);
    if g.Some? {
      var i :| 0 <= i < |entries| && entries[i] == (k, g.value) && forall j :: 0 <= j < i ==> entries[j].0 != k;
      if Kept(entries[i]) {
        PayloadTakesLastKept(entries, i);
      } else {
        assert !HasKeptEntry(entries, k);
      }
    }
  }

  /** When every input name occurs once, the file path and the JSON path refuse the same forms. */
  lemma BothPathsRefuseAlike(entries: seq<FormEntry>)
    requires DistinctKeys(entries)
    ensures FormLacksRequired(entries) <==> PayloadLacksRequired(JsonPayload(entries))
  {
    FieldAgrees(entries, "codigo");
    FieldAgrees(entries, "nombre");
    FieldAgrees(entries, "precio");
  }

  // ---------------------------------------------------------------- form mode

  /** What the save button calls: `guardarProducto`, or `actualizarProducto(id)`. */
  datatype FormMode = CreateMode | EditMode(id: int)

  /** How a save ended: success, a refusal by the server, or a failed connection. */
  datatype Outcome = Saved | Refused | ConnectionFailed

  datatype FormEvent = OpenNew | OpenEdit(id: int) | Finished(outcome: Outcome)

  /** The request the save button sends in a given mode. */
  function SaveRequest(mode: FormMode, entries: seq<FormEntry>, hasFile: bool): (r: Request)
    ensures mode.CreateMode? ==> !r.PutMultipart? && !r.PutJson?
    ensures mode.EditMode? ==> (r.PutMultipart? || r.PutJson?) && r.id == mode.id
  {
    match mode
    case CreateMode => SubmitCreate(entries, hasFile)
    case EditMode(id) => SubmitUpdate(id, entries, hasFile)
  }

  /** The binding after an event, as the code is written: opening a new form does not touch it. */
  function NextModeAsWritten(mode: FormMode, ev: FormEvent, ps: seq<Product>): (r: FormMode)
    ensures ev.OpenNew? ==> r == mode
    ensures r.EditMode? ==> r == mode || (ev == OpenEdit(r.id) && FindProduct(ps, r.id).Some?)
    ensures r == CreateMode ==> mode == CreateMode || ev == Finished(Saved)
  {
    match ev
    case OpenNew => mode
    case OpenEdit(id) => if FindProduct(ps, id).Some? then EditMode(id) else mode
    case Finished(o) => if mode.EditMode? && o == Saved then CreateMode else mode
  }

  /** The binding as intended: opening a new form always saves by creating. */
  function NextMode(mode: FormMode, ev: FormEvent, ps: seq<Product>): (r: FormMode)
    ensures ev.OpenNew? ==> r == CreateMode
    ensures r.EditMode? ==> r == mode || (ev == OpenEdit(r.id) && FindProduct(ps, r.id).Some?)
    ensures r.EditMode? ==> !ev.OpenNew? && !(ev == Finished(Saved))
  {
    match ev
    case OpenNew => CreateMode
    case _ => NextModeAsWritten(mode, ev, ps)
  }

  /** The mode after a run of events, starting from `mode`, with the binding as written. */
  function ReplayAsWritten(mode: FormMode, evs: seq<FormEvent>, ps: seq<Product>): FormMode
    decreases |evs|
  {
    if |evs| == 0 then mode else ReplayAsWritten(NextModeAsWritten(mode, evs[0], ps), evs[1..], ps)
  }

  /**
   * As written, whatever events follow, the save button only ever updates a product the
   * listing holds, and a run ending with a successful save is in create mode; a run ending
   * with a new form is in the mode the run was in before it.
   */
  lemma {:induction false} ReplayAsWrittenBindsListed(mode: FormMode, evs: seq<FormEvent>, ps: seq<Product>)
    requires mode.EditMode? ==> FindProduct(ps, mode.id).Some?
    ensures var r := ReplayAsWritten(mode, evs, ps); r.EditMode? ==> FindProduct(ps, r.id).Some?
    ensures |evs| > 0 && evs[|evs| - 1] == Finished(Saved) ==> ReplayAsWritten(mode, evs, ps) == CreateMode
    ensures |evs| > 0 && evs[|evs| - 1].OpenNew? ==>
      ReplayAsWritten(mode, evs, ps) == ReplayAsWritten(mode, evs[..|evs| - 1], ps)
    decreases |evs|
  {
    if |evs| > 0 {
      var m := NextModeAsWritten(mode, evs[0], ps);
      ReplayAsWrittenBindsListed(m, evs[1..], ps);
      if |evs| == 1 {
        assert evs[1..] == [];
        assert evs[..0] == [];
      } else {
        assert evs[1..][|evs[1..]| - 1] == evs[|evs| - 1];
        assert evs[1..][..|evs[1..]| - 1] == evs[..|evs| - 1][1..];
        assert evs[..|evs| - 1][0] == evs[0];
      }
    }
  }

  /** The mode after a run of events, starting from `mode`, with the corrected binding. */
  function Replay(mode: FormMode, evs: seq<FormEvent>, ps: seq<Product>): FormMode
    decreases |evs|
  {
    if |evs| == 0 then mode else Replay(NextMode(mode, evs[0], ps), evs[1..], ps)
  }

  /**
   * With the corrected binding, whatever events follow, the save button only ever updates
   * a product the listing holds, and a run ending with a new form or a successful save is
   * in create mode.
   */
  lemma {:induction false} ReplayBindsListed(mode: FormMode, evs: seq<FormEvent>, ps: seq<Product>)
    requires mode.EditMode? ==> FindProduct(ps, mode.id).Some?
    ensures var r := Replay(mode, evs, ps); r.EditMode? ==> FindProduct(ps, r.id).Some?
    ensures |evs| > 0 && (evs[|evs| - 1].OpenNew? || evs[|evs| - 1] == Finished(Saved)) ==>
      Replay(mode, evs, ps) == CreateMode
    decreases |evs|
  {
    if |evs| > 0 {
      var m := NextMode(mode, evs[0], ps);
      ReplayBindsListed(m, evs[1..], ps);
      if |evs| == 1 {
        assert evs[1..] == [];
      } else {
        assert evs[1..][|evs[1..]| - 1] == evs[|evs| - 1];
      }
    }
  }

  /** Opening the editor for a listed product makes the save button update that product. */
  lemma EditBindsUpdate(mode: FormMode, id: int, ps: seq<Product>, entries: seq<FormEntry>, hasFile: bool)
    requires exists i :: 0 <= i < |ps| && ps[i].id == id
    ensures NextModeAsWritten(mode, OpenEdit(id), ps) == EditMode(id)
    ensures SaveRequest(NextModeAsWritten(mode, OpenEdit(id), ps), entries, hasFile) == SubmitUpdate(id, entries, hasFile)
    ensures NextMode(mode, OpenEdit(id), ps) == EditMode(id)
    ensures SaveRequest(NextMode(mode, OpenEdit(id), ps), entries, hasFile) == SubmitUpdate(id, entries, hasFile)
  {
  }

  /** As written, only a successful update leaves edit mode; a failed one stays bound to the same id. */
  lemma OnlySuccessLeavesEditAsWritten(id: int, ev: FormEvent, ps: seq<Product>)
    ensures NextModeAsWritten(EditMode(id), ev, ps) == CreateMode <==> ev == Finished(Saved)
    ensures ev.Finished? && ev.outcome != Saved ==> NextModeAsWritten(EditMode(id), ev, ps) == EditMode(id)
  {
  }

  /** Intended: edit mode ends on a successful update or on opening a new form, and a failed update keeps it. */
  lemma EditEndsOnSuccessOrNewForm(id: int, ev: FormEvent, ps: seq<Product>)
    ensures NextMode(EditMode(id), ev, ps) == CreateMode <==> ev == Finished(Saved) || ev == OpenNew
    ensures ev.Finished? && ev.outcome != Saved ==> NextMode(EditMode(id), ev, ps) == EditMode(id)
  {
  }

  /** Intended: whatever happened before, saving a freshly opened form never updates an existing product. */
  lemma NewFormNeverUpdates(mode: FormMode, ps: seq<Product>, entries: seq<FormEntry>, hasFile: bool)
    ensures SaveRequest(NextMode(mode, OpenNew, ps), entries, hasFile) == SubmitCreate(entries, hasFile)
  {
  }

  /**
   * As written: edit product 7, let the update fail (or just close the dialog), open
   * "new product" and save a complete form — the request is an update of product 7.
   */
  lemma StaleEditBindingAsWritten()
    ensures var ps := [Product(7, "A1", "Tornillo", 3, 5, true, None)];
      var form := [("codigo", Field("B2")), ("nombre", Field("Tuerca")), ("precio", Field("2.5"))];
      var m := NextModeAsWritten(NextModeAsWritten(NextModeAsWritten(CreateMode, OpenEdit(7), ps), Finished(Refused), ps), OpenNew, ps);
      SaveRequest(m, form, false) == PutJson(7, JsonPayload(form))
  {
  }
}

=== FILE: schema_init.dfy ===
/**
 * `ejecutar_schema` of database/init_db.py: the text of `schema.sql` is cut at every `;`,
 * each piece is stripped, blank pieces are dropped, and the remaining statements are
 * executed one after the other until one fails. Reading the file and the database
 * connection are left out; whether the server accepts a statement is a parameter.
 */
module SchemaInit {
  import opened Text

  /** The comprehension over the pieces, front to back. */
  function Kept(pieces: seq<string>): seq<string> {
    if |pieces| == 0 then []
    else
      var c := Strip(pieces[0]);
      if c != [] then [c] + Kept(pieces[1..]) else Kept(pieces[1..])
  }

  /** There are no more kept statements than pieces, and every one is non-blank and stripped. */
  lemma {:induction false} KeptShape(pieces: seq<string>)
    ensures |Kept(pieces)| <= |pieces|
    ensures forall c :: c in Kept(pieces) ==> c != [] && IsStripped(c)
  {
    if |pieces| > 0 {
      KeptShape(pieces[1..]);
    }
  }

  /** Every kept statement is the strip of one of the pieces. */
  lemma {:induction false} KeptOrigin(pieces: seq<string>)
    ensures forall c :: c in Kept(pieces) ==> exists p :: p in pieces && c == Strip(p)
  {
    if |pieces| > 0 {
      var tail := pieces[1..];
      KeptOrigin(tail);
      forall c | c in Kept(pieces) ensures exists p :: p in pieces && c == Strip(p) {
        if c == Strip(pieces[0]) {
          assert pieces[0] in pieces;
        } else {
          assert c in Kept(tail);
          var p :| p in tail && c == Strip(p);
          assert p in pieces;
        }
      }
    }
  }

  /** `[cmd.strip() for cmd in pieces if cmd.strip()]`. */
  function KeepCommands(pieces: seq<string>): (cmds: seq<string>)
    ensures |cmds| <= |pieces|
    ensures forall c :: c in cmds ==> c != [] && IsStripped(c)
    ensures forall c :: c in cmds ==> exists p :: p in pieces && c == Strip(p)
  {
    KeptShape(pieces);
    KeptOrigin(pieces);
    Kept(pieces)
  }

  /**
   * The statements of a schema script: none is blank, none has whitespace at either end,
   * and none contains `;`.
   */
  function SchemaCommands(script: string): (cmds: seq<string>)
    ensures forall i :: 0 <= i < |cmds| ==> cmds[i] != [] && !AllSpace(cmds[i]) && IsStripped(cmds[i])
    ensures forall i :: 0 <= i < |cmds| ==> ';' !in cmds[i]
  {
    var pieces := Split(script, ';');
    var cmds := KeepCommands(pieces);
    forall i | 0 <= i < |cmds| ensures cmds[i] != [] && !AllSpace(cmds[i]) && IsStripped(cmds[i]) && ';' !in cmds[i] {
      var c := cmds[i];
      assert c in cmds;
      assert !IsSpace(c[0]);
      var p :| p in pieces && c == Strip(p);
      StripIsSlice(p);
      assert ';' !in p;
    }
    cmds
  }

  /** A script without `;` that is not blank is one statement: the script stripped. */
  lemma SchemaSingleCommand(script: string)
    requires ';' !in script && !AllSpace(script)
    ensures SchemaCommands(script) == [Strip(script)]
  {
    assert Split(script, ';') == [script];
  }

  /** A statement as the split produces it: not blank, stripped, without `;`. */
  predicate CleanCommand(c: string) {
    c != [] && IsStripped(c) && ';' !in c
  }

  lemma {:induction false} KeepClean(cmds: seq<string>)
    requires forall i :: 0 <= i < |cmds| ==> CleanCommand(cmds[i])
    ensures KeepCommands(cmds) == cmds
  {
    if |cmds| > 0 {
      StripOfStripped(cmds[0]);
      KeepClean(cmds[1..]);
    }
  }

  /**
   * Order and content are kept: clean statements joined with `;` come back out of the
   * split exactly, in the same order.
   */
  lemma SchemaRoundTrip(cmds: seq<string>)
    requires forall i :: 0 <= i < |cmds| ==> CleanCommand(cmds[i])
    ensures SchemaCommands(Join(cmds, ';')) == cmds
  {
    if |cmds| == 0 {
      assert Split([], ';') == [[]];
      assert Strip([]) == [];
    } else {
      SplitJoin(cmds, ';');
      KeepClean(cmds);
    }
  }

  /** The comprehension works piece by piece: keeping from two runs of pieces is keeping from each. */
  lemma {:induction false} KeptConcat(p: seq<string>, q: seq<string>)
    ensures Kept(p + q) == Kept(p) + Kept(q)
  {
    if |p| == 0 {
      assert p + q == q;
    } else {
      assert (p + q)[0] == p[0];
      assert (p + q)[1..] == p[1..] + q;
      KeptConcat(p[1..], q);
    }
  }

  /** One piece gives its strip when it is not blank, and nothing when it is. */
  lemma KeptSingle(x: string)
    ensures Kept([x]) == if AllSpace(x) then [] else [Strip(x)]
  {
  }

  /** Completeness: the strip of every piece that is not blank is among the kept statements. */
  lemma {:induction false} KeptComplete(pieces: seq<string>)
    ensures forall p :: p in pieces && !AllSpace(p) ==> Strip(p) in Kept(pieces)
  {
    if |pieces| > 0 {
      var tail := pieces[1..];
      KeptComplete(tail);
      assert pieces == [pieces[0]] + tail;
      KeptConcat([pieces[0]], tail);
      KeptSingle(pieces[0]);
      forall p | p in pieces && !AllSpace(p) ensures Strip(p) in Kept(pieces) {
        if p != pieces[0] {
          assert p in tail;
        }
      }
    }
  }

  /**
   * The general case of the split: for any `;`-free pieces, the statements of the script
   * they make when joined with `;` are the strips of the pieces that are not blank, in order.
   */
  lemma SchemaOfPieces(pieces: seq<string>)
    requires |pieces| >= 1
    requires forall i :: 0 <= i < |pieces| ==> ';' !in pieces[i]
    ensures SchemaCommands(Join(pieces, ';')) == Kept(pieces)
    ensures forall p :: p in pieces && !AllSpace(p) ==> Strip(p) in SchemaCommands(Join(pieces, ';'))
  {
    SplitJoin(pieces, ';');
    KeptComplete(pieces);
  }

  /** Two statements, a blank tail after the last `;`: both come out, first one first. */
  lemma SchemaTwoStatements(a: string, b: string, tail: string)
    requires ';' !in a && ';' !in b && ';' !in tail
    requires !AllSpace(a) && !AllSpace(b) && AllSpace(tail)
    ensures SchemaCommands(a + ";" + b + ";" + tail) == [Strip(a), Strip(b)]
  {
    var pieces := [a, b, tail];
    assert pieces[1..] == [b, tail];
    assert pieces[1..][1..] == [tail];
    assert Join([tail], ';') == tail;
    assert Join([b, tail], ';') == b + ";" + tail;
    assert Join(pieces, ';') == a + ";" + b + ";" + tail;
    SchemaOfPieces(pieces);
    assert Kept([tail]) == [] by { KeptSingle(tail); }
    assert Kept([b, tail]) == [Strip(b)];
  }

  /**
   * The execution loop over statements already split: they are executed in order, each
   * once, until the first one the server refuses; `ok` tells whether all went through.
   * The loop's own `if command:` guard never skips anything, since no statement is empty.
   */
  method RunCommands(commands: seq<string>, accepts: string -> bool) returns (executed: seq<string>, ok: bool)
    requires forall i :: 0 <= i < |commands| ==> commands[i] != []
    ensures ok ==> executed == commands
    ensures !ok ==> 0 < |executed| <= |commands| && executed == commands[..|executed|]
    ensures !ok ==> !accepts(executed[|executed| - 1])
    ensures forall i :: 0 <= i < |executed| - 1 ==> accepts(executed[i])
    ensures ok ==> forall i :: 0 <= i < |executed| ==> accepts(executed[i])
  {
    executed := [];
    ok := true;
    var i := 0;
    while i < |commands|
      invariant 0 <= i <= |commands|
      invariant executed == commands[..i]
      invariant forall j :: 0 <= j < i ==> accepts(commands[j])
    {
      var command := commands[i];
      if command != [] {
        assert commands[..i + 1] == commands[..i] + [command];
        executed := executed + [command];
        if !accepts(command) {
          ok := false;
          return;
        }
      }
      i := i + 1;
    }
    assert commands[..i] == commands;
  }

  /** `ejecutar_schema` once the file is read: split the script, then run its statements. */
  method EjecutarSchema(script: string, accepts: string -> bool) returns (executed: seq<string>, ok: bool)
    ensures ok ==> executed == SchemaCommands(script)
    ensures !ok ==> 0 < |executed| <= |SchemaCommands(script)| && executed == SchemaCommands(script)[..|executed|]
    ensures !ok ==> !accepts(executed[|executed| - 1])
    ensures forall i :: 0 <= i < |executed| - 1 ==> accepts(executed[i])
    ensures ok ==> forall i :: 0 <= i < |executed| ==> accepts(executed[i])
  {
    executed, ok := RunCommands(SchemaCommands(script), accepts);
  }
}

=== FILE: stock_alerts.dfy ===
/**
 * `generar_alertas_stock` of backend/app.py: one pass over the active low-stock products
 * that inserts a `stock_bajo` alert, then one over the active out-of-stock products that
 * inserts a `stock_agotado` alert, each skipping a product that already has a recent
 * alert of that kind. "Recent" (the last day) is the set of (product, kind) pairs the
 * alerts table answers yes for; every insert adds its pair, as a re-query would see it.
 */
module StockAlerts {
  import opened Text
  import opened Inventory

  /** What the "recent alert" query asks about: a product id and an alert kind. */
  datatype AlertKey = AlertKey(productoId: int, kind: AlertKind)

  /** An inserted `alertas` row. */
  datatype NewAlert = NewAlert(key: AlertKey, mensaje: string)

  /** The WHERE clause of each pass: active, and low (first pass) or empty (second pass). */
  predicate Qualifies(p: Product, kind: AlertKind) {
    p.activo && match kind
      case StockBajo => IsLowStock(p)
      case StockAgotado => IsOutOfStock(p)
  }

  /**
   * Only active products get alerts, and an active product that has run out gets both
   * kinds whenever its minimum is not negative.
   */
  lemma QualifiesBoth(p: Product)
    ensures Qualifies(p, StockBajo) || Qualifies(p, StockAgotado) ==> p.activo
    ensures Qualifies(p, StockAgotado) && p.stockMinimo >= 0 ==> Qualifies(p, StockBajo)
    ensures Qualifies(p, StockAgotado) <==> p.activo && p.stockActual == 0
  {
  }

  predicate Selects(p: Product, k: AlertKey) {
    p.id == k.productoId && Qualifies(p, k.kind)
  }

  /** Some product among the first `n` is selected for the key. */
  predicate DueAmong(ps: seq<Product>, n: nat, k: AlertKey)
    requires n <= |ps|
  {
    exists j :: 0 <= j < n && Selects(ps[j], k)
  }

  const LowPrefix: string := "Stock bajo: "
  const OutPrefix: string := "STOCK AGOTADO: "

  /** The prefix that names an alert's kind in its message. */
  function PrefixOf(kind: AlertKind): string {
    match kind
    case StockBajo => LowPrefix
    case StockAgotado => OutPrefix
  }

  /** The text of an inserted alert; its parts are stated by `MessageNamesProduct`. */
  function Message(p: Product, kind: AlertKind): string {
    var head := PrefixOf(kind) + p.nombre + " (Código: " + p.codigo;
    match kind
    case StockBajo =>
      head + ") - Stock actual: " + IntToDecimal(p.stockActual) + ", Mínimo: " + IntToDecimal(p.stockMinimo)
    case StockAgotado =>
      head + ") - Reabastecimiento urgente requerido"
  }

  /** `b` sits in `a + b + c` right after `a`. */
  lemma Middle(a: string, b: string, c: string)
    ensures |a + b + c| >= |a| + |b|
    ensures (a + b + c)[..|a|] == a
    ensures (a + b + c)[|a|..|a| + |b|] == b
  {
  }

  /**
   * The message of an alert starts with its kind's prefix, followed by the product's name,
   * then its code in parentheses.
   */
  lemma MessageNamesProduct(p: Product, kind: AlertKind)
    ensures StartsWith(Message(p, kind), PrefixOf(kind))
    ensures var k := |PrefixOf(kind)|;
      |Message(p, kind)| >= k + |p.nombre| && Message(p, kind)[k..k + |p.nombre|] == p.nombre
    ensures var k := |PrefixOf(kind)| + |p.nombre| + |" (Código: "|;
      |Message(p, kind)| >= k + |p.codigo| && Message(p, kind)[k..k + |p.codigo|] == p.codigo
  {
    var m := Message(p, kind);
    var pre := PrefixOf(kind);
    var lead := pre + p.nombre + " (Código: ";
    var tail := m[|lead| + |p.codigo|..];
    assert m == lead + p.codigo + tail;
    Middle(lead, p.codigo, tail);
    var rest := m[|pre| + |p.nombre|..];
    assert m == pre + p.nombre + rest;
    Middle(pre, p.nombre, rest);
  }

  /** The two kinds' messages never coincide, whatever the products. */
  lemma MessagesTellKindsApart(p: Product, q: Product)
    ensures Message(p, StockBajo) != Message(q, StockAgotado)
  {
    MessageNamesProduct(p, StockBajo);
    MessageNamesProduct(q, StockAgotado);
    var a := Message(p, StockBajo);
    var b := Message(q, StockAgotado);
    assert a[..|LowPrefix|][1] == 't';
    assert b[..|OutPrefix|][1] == 'T';
  }

  ghost function Keys(s: seq<NewAlert>): set<AlertKey> {
    set a | a in s :: a.key
  }

  lemma KeysAppend(s: seq<NewAlert>, a: NewAlert)
    ensures Keys(s + [a]) == Keys(s) + {a.key}
  {
    assert forall x :: x in s + [a] <==> x in s || x == a;
  }

  predicate NoRepeatedKey(s: seq<NewAlert>) {
    forall i, j :: 0 <= i < j < |s| ==> s[i].key != s[j].key
  }

  /** Each inserted alert belongs to a selected product and carries that product's message. */
  predicate JustifiedAlert(ps: seq<Product>, a: NewAlert) {
    exists j :: 0 <= j < |ps| && Selects(ps[j], a.key) && a.mensaje == Message(ps[j], a.key.kind)
  }

  predicate Justified(ps: seq<Product>, s: seq<NewAlert>) {
    forall i :: 0 <= i < |s| ==> JustifiedAlert(ps, s[i])
  }

  lemma KeysConcat(s: seq<NewAlert>, t: seq<NewAlert>)
    ensures Keys(s + t) == Keys(s) + Keys(t)
  {
    assert forall x :: x in s + t <==> x in s || x in t;
  }

  lemma JustifiedConcat(ps: seq<Product>, s: seq<NewAlert>, t: seq<NewAlert>)
    requires Justified(ps, s) && Justified(ps, t)
    ensures Justified(ps, s + t)
  {
    forall i | 0 <= i < |s + t| ensures JustifiedAlert(ps, (s + t)[i]) {
      if i < |s| {
        assert (s + t)[i] == s[i];
      } else {
        assert (s + t)[i] == t[i - |s|];
      }
    }
  }

  /**
   * One pass of the handler for one alert kind: walking the selected products in order,
   * insert an alert for each pair not yet seen, and count it as seen. The pairs that get
   * an alert are exactly the selected ones outside `seen0`, each once, and all of them
   * are seen afterwards.
   */
  method AlertPass(ps: seq<Product>, kind: AlertKind, seen0: set<AlertKey>) returns (added: seq<NewAlert>, seen: set<AlertKey>)
    ensures seen == seen0 + Keys(added)
    ensures forall k :: k in Keys(added) <==> k !in seen0 && k.kind == kind && DueAmong(ps, |ps|, k)
    ensures NoRepeatedKey(added)
    ensures Justified(ps, added)
    ensures forall a :: a in added ==> a.key.kind == kind
  {
    added := [];
    seen := seen0;
    var i := 0;
    while i < |ps|
      invariant 0 <= i <= |ps|
      invariant seen == seen0 + Keys(added)
      invariant forall k :: k in Keys(added) <==> k !in seen0 && k.kind == kind && DueAmong(ps, i, k)
      invariant NoRepeatedKey(added)
      invariant Justified(ps, added)
      invariant forall a :: a in added ==> a.key.kind == kind
    {
      var p := ps[i];
      var key := AlertKey(p.id, kind);
      if Qualifies(p, kind) && key !in seen {
        var a := NewAlert(key, Message(p, kind));
        KeysAppend(added, a);
        added := added + [a];
        seen := seen + {key};
      }
      assert forall k :: DueAmong(ps, i + 1, k) <==> DueAmong(ps, i, k) || Selects(ps[i], k);
      i := i + 1;
    }
  }

  /**
   * The alerts inserted and the count returned. A (product, kind) pair gets an alert
   * exactly when a selected product has it and it had no recent alert; no pair gets two,
   * the low-stock alerts come first, and the count is the number of inserts.
   */
  method GenerarAlertasStock(ps: seq<Product>, recent: set<AlertKey>) returns (inserted: seq<NewAlert>, count: nat)
    ensures count == |inserted|
    ensures forall k :: k in Keys(inserted) <==> k !in recent && DueAmong(ps, |ps|, k)
    ensures NoRepeatedKey(inserted)
    ensures Justified(ps, inserted)
    ensures forall i, j :: 0 <= i < j < |inserted| && inserted[j].key.kind == StockBajo ==> inserted[i].key.kind == StockBajo
  {
    var low, seen := AlertPass(ps, StockBajo, recent);
    var out, _ := AlertPass(ps, StockAgotado, seen);
    inserted := low + out;
    count := |inserted|;
    KeysConcat(low, out);
    JustifiedConcat(ps, low, out);
    forall i, j | 0 <= i < j < |inserted| ensures inserted[i].key != inserted[j].key {
      if j >= |low| && i < |low| {
        assert inserted[i] == low[i] && low[i] in low;
        assert inserted[j] == out[j - |low|] && out[j - |low|] in out;
      }
    }
    forall j | 0 <= j < |inserted| ensures inserted[j].key.kind == StockBajo <==> j < |low| {
      if j < |low| {
        assert inserted[j] == low[j] && low[j] in low;
      } else {
        assert inserted[j] == out[j - |low|] && out[j - |low|] in out;
      }
    }
  }
}

=== FILE: text.dfy ===
/**
 * String handling shared by the backend, the frontend and the database script:
 * Python's `str.strip`, `str.split(sep)` and `str.lower` on the characters that matter,
 * JavaScript's `startsWith`, and decimal integer text (Python `int(s)` and `str(n)`).
 */
module Text {
  import opened Optional

  /** Python's `str.isspace()` for a single code point. */
  predicate IsSpace(c: char) {
    var n := c as int;
    || n == 0x20 || (0x09 <= n <= 0x0D) || (0x1C <= n <= 0x1F)
    || n == 0x85 || n == 0xA0 || n == 0x1680 || (0x2000 <= n <= 0x200A)
    || n == 0x2028 || n == 0x2029 || n == 0x202F || n == 0x205F || n == 0x3000
  }

  predicate AllSpace(s: string) {
    forall i :: 0 <= i < |s| ==> IsSpace(s[i])
  }

  /** A string with no whitespace at either end (what `strip` produces). */
  predicate IsStripped(s: string) {
    |s| == 0 || (!IsSpace(s[0]) && !IsSpace(s[|s| - 1]))
  }

  /** Number of whitespace characters at the start of `s`. */
  function LeadingSpaces(s: string): (k: nat)
    ensures k <= |s|
    ensures forall i :: 0 <= i < k ==> IsSpace(s[i])
    ensures k < |s| ==> !IsSpace(s[k])
  {
    if |s| > 0 && IsSpace(s[0]) then 1 + LeadingSpaces(s[1..]) else 0
  }

  /** Number of whitespace characters at the end of `s`. */
  function TrailingSpaces(s: string): (k: nat)
    ensures k <= |s|
    ensures forall i :: |s| - k <= i < |s| ==> IsSpace(s[i])
    ensures k < |s| ==> !IsSpace(s[|s| - k - 1])
  {
    if |s| > 0 && IsSpace(s[|s| - 1]) then 1 + TrailingSpaces(s[..|s| - 1]) else 0
  }

  /** Python's `s.strip()`: `s` without its leading and trailing whitespace. */
  function Strip(s: string): (r: string)
    ensures IsStripped(r)
    ensures r == [] <==> AllSpace(s)
  {
    var a := LeadingSpaces(s);
    if a == |s| then []
    else
      var b := TrailingSpaces(s);
      assert !IsSpace(s[a]);
      assert b <= |s| - a;
      s[a..|s| - b]
  }

  /** The stripped string is a slice of `s` bordered by whitespace only, so it uses only characters of `s`. */
  lemma StripIsSlice(s: string)
    ensures var r := Strip(s);
      && (exists a :: 0 <= a <= |s| - |r| && r == s[a..a + |r|] && AllSpace(s[..a]) && AllSpace(s[a + |r|..]))
      && forall c :: c in r ==> c in s
  {
    var r := Strip(s);
    var a := LeadingSpaces(s);
    if a == |s| {
      assert s[..0] == [] && s[0..0] == [];
    } else {
      var b := TrailingSpaces(s);
      assert b <= |s| - a;
      assert r == s[a..a + |r|];
      assert AllSpace(s[..a]);
      assert s[a + |r|..] == s[|s| - b..];
      assert AllSpace(s[|s| - b..]);
    }
  }

  /** Stripping a string that is already stripped changes nothing. */
  lemma StripOfStripped(s: string)
    requires IsStripped(s)
    ensures Strip(s) == s
  {
    if |s| > 0 {
      assert LeadingSpaces(s) == 0;
      assert TrailingSpaces(s) == 0;
    }
  }

  /** Python's `s.find(c)`, as an option: the first position of `c` in `s`. */
  function IndexOf(s: string, c: char): (r: Option<nat>)
    ensures r.None? <==> c !in s
    ensures r.Some? ==> r.value < |s| && s[r.value] == c && c !in s[..r.value]
  {
    if |s| == 0 then None
    else if s[0] == c then Some(0)
    else
      match IndexOf(s[1..], c)
      case None => None
      case Some(i) =>
        assert s[..i + 1] == [s[0]] + s[1..][..i];
        Some(i + 1)
  }

  /** Python's `s.rfind(c)`, as an option: the last position of `c` in `s`. */
  function LastIndexOf(s: string, c: char): (r: Option<nat>)
    ensures r.None? <==> c !in s
    ensures r.Some? ==> r.value < |s| && s[r.value] == c && c !in s[r.value + 1..]
  {
    if |s| == 0 then None
    else if s[|s| - 1] == c then Some(|s| - 1)
    else
      var r := LastIndexOf(s[..|s| - 1], c);
      assert r.Some? ==> s[r.value + 1..] == s[..|s| - 1][r.value + 1..] + [s[|s| - 1]];
      assert r.None? ==> s == s[..|s| - 1] + [s[|s| - 1]];
      r
  }

  /** The last position of `c` depends only on where `c` occurs. */
  lemma {:induction false} LastIndexOfSamePositions(s: string, t: string, c: char)
    requires |s| == |t|
    requires forall i :: 0 <= i < |s| ==> (s[i] == c <==> t[i] == c)
    ensures LastIndexOf(s, c) == LastIndexOf(t, c)
  {
    if |s| > 0 {
      LastIndexOfSamePositions(s[..|s| - 1], t[..|t| - 1], c);
    }
  }

  /** `pieces` glued together with `sep` between neighbours (Python's `sep.join`). */
  function Join(pieces: seq<string>, sep: char): string {
    if |pieces| == 0 then []
    else if |pieces| == 1 then pieces[0]
    else pieces[0] + [sep] + Join(pieces[1..], sep)
  }

  /**
   * Python's `s.split(sep)` for a one-character separator: always at least one piece,
   * no piece contains the separator, and joining the pieces back gives `s`.
   */
  function Split(s: string, sep: char): (r: seq<string>)
    ensures |r| >= 1
    ensures forall i :: 0 <= i < |r| ==> sep !in r[i]
    ensures Join(r, sep) == s
    decreases |s|
  {
    match IndexOf(s, sep)
    case None => [s]
    case Some(i) =>
      var rest := Split(s[i + 1..], sep);
      assert s == s[..i] + [sep] + s[i + 1..];
      assert ([s[..i]] + rest)[1..] == rest;
      [s[..i]] + rest
  }

  /** The other direction of the round trip: splitting a join gives back the pieces. */
  lemma {:induction false} SplitJoin(pieces: seq<string>, sep: char)
    requires |pieces| >= 1
    requires forall i :: 0 <= i < |pieces| ==> sep !in pieces[i]
    ensures Split(Join(pieces, sep), sep) == pieces
    decreases |pieces|
  {
    if |pieces| == 1 {
      assert IndexOf(pieces[0], sep).None?;
    } else {
      var a := pieces[0];
      var b := Join(pieces[1..], sep);
      var s := a + [sep] + b;
      assert Join(pieces, sep) == s;
      var i := IndexOf(s, sep).value;
      assert s[|a|] == sep;
      assert i == |a|;
      assert s[..i] == a;
      assert s[i + 1..] == b;
      SplitJoin(pieces[1..], sep);
      assert Split(s, sep) == [a] + pieces[1..];
    }
  }

  /** JavaScript's `s.startsWith(prefix)`. */
  predicate StartsWith(s: string, prefix: string) {
    |prefix| <= |s| && s[..|prefix|] == prefix
  }

  /** Lower-casing of one character, for the ASCII letters. */
  function LowerChar(c: char): char {
    if 'A' <= c <= 'Z' then (c as int + 32) as char else c
  }

  /** Python's `s.lower()` restricted to ASCII letters (see README for why that suffices here). */
  function Lower(s: string): (r: string)
    ensures |r| == |s|
    ensures forall i :: 0 <= i < |s| ==> r[i] == LowerChar(s[i])
    ensures forall i :: 0 <= i < |r| ==> !('A' <= r[i] <= 'Z')
    ensures forall i :: 0 <= i < |s| && !('A' <= s[i] <= 'Z') ==> r[i] == s[i]
  {
    seq(|s|, i requires 0 <= i < |s| => LowerChar(s[i]))
  }

  /** Lower-casing twice is lower-casing once. */
  lemma LowerIdempotent(s: string)
    ensures Lower(Lower(s)) == Lower(s)
  {
  }

  predicate IsDigit(c: char) {
    '0' <= c <= '9'
  }

  predicate AllDigits(s: string) {
    forall i :: 0 <= i < |s| ==> IsDigit(s[i])
  }

  function DigitChar(d: nat): (c: char)
    requires d < 10
    ensures IsDigit(c) && (c as int) - ('0' as int) == d
  {
    (('0' as int) + d) as char
  }

  /** The value of a string of decimal digits, most significant first. */
  function DigitsValue(s: string): nat
    requires AllDigits(s)
  {
    if |s| == 0 then 0
    else DigitsValue(s[..|s| - 1]) * 10 + ((s[|s| - 1] as int) - ('0' as int))
  }

  /** Decimal text of a natural number, without leading zeros. */
  function NatToDecimal(n: nat): (s: string)
    ensures |s| >= 1 && AllDigits(s)
    decreases n
  {
    if n < 10 then [DigitChar(n)] else NatToDecimal(n / 10) + [DigitChar(n % 10)]
  }

  /** Python's `str(n)` for an integer. */
  function IntToDecimal(n: int): string {
    if n < 0 then "-" + NatToDecimal(-n) else NatToDecimal(n)
  }

  /**
   * Python's `int(s)` for text: an optional sign followed by at least one ASCII digit;
   * `None` where Python raises `ValueError`.
   */
  function ParseDecimal(s: string): (r: Option<int>)
    ensures r.Some? <==> (|s| >= 1 && AllDigits(s[1..])
      && (IsDigit(s[0]) || ((s[0] == '-' || s[0] == '+') && |s| >= 2)))
    ensures r.Some? && s[0] == '-' ==> r.value <= 0
    ensures r.Some? && s[0] != '-' ==> r.value >= 0
    ensures r.Some? && IsDigit(s[0]) ==> r == Some(DigitsValue(s))
    ensures r.Some? && (s[0] == '-' || s[0] == '+') ==>
      r.value == (if s[0] == '-' then -(DigitsValue(s[1..]) as int) else DigitsValue(s[1..]))
  {
    if |s| == 0 then None
    else if s[0] == '-' || s[0] == '+' then
      if |s| > 1 && AllDigits(s[1..]) then
        var v: int := if s[0] == '-' then 0 - (DigitsValue(s[1..]) as int) else DigitsValue(s[1..]);
        Some(v)
      else None
    else if AllDigits(s) then Some(DigitsValue(s))
    else None
  }

  /** `int()` reads a sign and leading zeros the way Python does. */
  lemma ParseSignedExamples()
    ensures ParseDecimal("-12") == Some(-12)
    ensures ParseDecimal("+7") == Some(7)
    ensures ParseDecimal("-012") == Some(-12)
  {
    assert DigitsValue("1") == 1;
    assert DigitsValue("12") == 12 by { assert "12"[..1] == "1"; }
    assert DigitsValue("01") == 1 by { assert "01"[..1] == "0"; }
    assert DigitsValue("012") == 12 by { assert "012"[..2] == "01"; }
    assert "-12"[1..] == "12" && "-012"[1..] == "012" && "+7"[1..] == "7";
  }

  lemma {:induction false} NatToDecimalValue(n: nat)
    ensures DigitsValue(NatToDecimal(n)) == n
    decreases n
  {
    if n >= 10 {
      var s := NatToDecimal(n);
      NatToDecimalValue(n / 10);
      assert s[..|s| - 1] == NatToDecimal(n / 10);
    }
  }

  /** Round trip: reading back the decimal text of `n` gives `n`. */
  lemma ParseIntToDecimal(n: int)
    ensures ParseDecimal(IntToDecimal(n)) == Some(n)
  {
    if n < 0 {
      var t := NatToDecimal(-n);
      NatToDecimalValue(-n);
      var s := "-" + t;
      assert s[0] == '-' && s[1..] == t;
      assert ParseDecimal(s) == Some(0 - DigitsValue(t));
    } else {
      var t := NatToDecimal(n);
      NatToDecimalValue(n);
      assert IsDigit(t[0]);
      assert ParseDecimal(t) == Some(DigitsValue(t));
    }
  }
}
